=== FILE: README.md ===
# Sopremo record nodes, the Nephele remote receiver and the Sopremo package manager, in Dafny

This project models the core of the Stratosphere record value model and two smaller pieces beside it.
Records flowing between Sopremo dataflow stages are JSON-like nodes. The model covers:

- **Array nodes** (`AbstractArrayNode`). An ordered list of child references. It is reused in place by
  `copyValueFrom` and by `readResolve`, written count-prefixed, compared lexicographically, and
  rendered as `[a, b, …]`. Module `ArrayNodes`, file `array_node.dfy`.
- **Stream nodes** (`StreamNode`). A one-shot array backed by a single producer (a Java iterator).
  Iterating and rendering consume it. Copying and the codec are refused. Module `StreamNodes`.
- **Typed object views** (`TypedObjectNode`). A view owns no fields and forwards to a backing object
  node, which it may share with other views. Module `TypedNodes`.
- **The null node** (`NullNode`). A singleton with constant behaviour. Module `NullNodes`. Held by a
  container, the shared instance is the child `NullInstance`, and a NullNode built by the public
  constructor is a mutable `Node` child whose value is `Null`.
- **The remote receiver** (`RemoteReceiver`). The address and connection index of a remote task
  manager, with its validating constructor and its Kryo wire codec. Module `RemoteReceivers`.
- **The package manager** (`PackageManager`). The rule that finds a package on the classpath, the jar
  path list, and the cache of loaded packages. Module `PackageManagers`.

Shared pieces:

- Module `Nodes` holds the content of a node (`Value`), its kind (`Kind`) and references to nodes as
  containers hold them (`Child`). The Null and Missing singletons are shared instances. Every other
  node is a mutable `JsonNode` object, so reuse of a node instance is observable.
- Module `Wrappers` holds `Option`, `Result`, the error kinds, Java's 32-bit `int` type and its wrap-around.

Each part takes the form of its source. `copyValueFrom`, `readResolve` and `addAll` on arrays are loops
over a mutable child list. The stream's producer field, the view's backing reference, the receiver's
`read` and the package manager's lists and cache are updated in place. These are classes and methods
with loop invariants. The null node and the read-only array operations are pure functions.

Three behaviours of the code are worth stating outright:

- `copyValueFrom` never truncates the receiver. Its trailing add and remove loops start at the larger
  of the two lengths and never run. Copying from a shorter array keeps the receiver's length and leaves
  Missing in the extra positions (`ArrayNodes.CopyFromShorterPads`).
- `readResolve` overwrites the children one at a time, so a stream that ends early leaves the children
  decoded so far in place. The model states nothing about the children in that case.
- `appendAsString` on a stream drains the whole producer, not only the previewed part, and installs an
  iterator over clones of all the elements.

## Model

Source paths are relative to the repository root.

| member | source | states |
|---|---|---|
| Nodes.LexCompareFirstDifference | sopremo/sopremo-common/src/main/java/eu/stratosphere/sopremo/type/AbstractArrayNode.java:167-184 | The array comparison returns the first nonzero child comparison after a run of equal children. A strict prefix is smaller (-1), the longer side is greater (1), and equal length with all children equal gives 0. |
| Nodes.LexCompareRange | sopremo/sopremo-common/src/main/java/eu/stratosphere/sopremo/type/AbstractArrayNode.java:167-184 | In the model, where every child comparison is -1, 0 or 1, the array comparison is -1, 0 or 1 as well. |
| Nodes.LexCompareZeroIffEqual | sopremo/sopremo-common/src/main/java/eu/stratosphere/sopremo/type/AbstractArrayNode.java:167-184 | The array comparison is 0 exactly when the two child sequences are equal. |
| Nodes.LexCompareAntisymmetric | sopremo/sopremo-common/src/main/java/eu/stratosphere/sopremo/type/AbstractArrayNode.java:167-184 | Swapping the two arrays negates the comparison. |
| Nodes.CompareZeroIffEqual | sopremo/sopremo-common/src/main/java/eu/stratosphere/sopremo/type/AbstractArrayNode.java:173-176 | A child comparison is 0 exactly for equal values, nested arrays included. |
| Nodes.CompareAntisymmetric | sopremo/sopremo-common/src/main/java/eu/stratosphere/sopremo/type/AbstractArrayNode.java:173-176 | Swapping two children negates their comparison, nested arrays included. |
| Nodes.JoinSnoc | sopremo/sopremo-common/src/main/java/eu/stratosphere/sopremo/type/AbstractArrayNode.java:213-224 | Rendering one more child extends the text by ", " and that child's rendering. |
| Nodes.CopyInto | sopremo/sopremo-common/src/main/java/eu/stratosphere/sopremo/type/AbstractArrayNode.java:54-55 | The existing child keeps its identity. Its new value is `CopiedValue` of its old value and the incoming one: the incoming value, except that an array is copied into element by element. |
| Nodes.CloneChild | sopremo/sopremo-common/src/main/java/eu/stratosphere/sopremo/type/AbstractArrayNode.java:56-57 | A clone has the original's value. A singleton, or any NullNode, clones to itself, as `NullNode.clone` returns the receiver; every other node clones to a fresh node. |
| Nodes.ChildEqualsIsValueEquality | sopremo/sopremo-common/src/main/java/eu/stratosphere/sopremo/type/NullNode.java:47-50 | When neither child is a NullNode other than the shared instance, `equals` on children is equality of values. |
| Nodes.CopiedItems | sopremo/sopremo-common/src/main/java/eu/stratosphere/sopremo/type/AbstractArrayNode.java:46-64 | After a copy the length is the larger of the two lengths. Past the source's end a position holds Missing. A position whose old child has the incoming kind holds `CopiedValue` of the two, so a reused nested array is itself copied into and padded; any other position holds the incoming value. |
| Nodes.CopiedValue | sopremo/sopremo-common/src/main/java/eu/stratosphere/sopremo/type/AbstractArrayNode.java:53-55 | Copying a value into a node of the same kind gives the incoming kind. Only array into array differs from the incoming value: it is copied position by position as `CopiedItems` says. |
| ArrayNodes.CopyFromLongerIsEqual | sopremo/sopremo-common/src/main/java/eu/stratosphere/sopremo/type/AbstractArrayNode.java:51-63 | Copying gives exactly the source's values when the source is at least as long at every level, that is, also for each pair of nested arrays that meet in a reused slot. |
| ArrayNodes.NestedCopyPads | sopremo/sopremo-common/src/main/java/eu/stratosphere/sopremo/type/AbstractArrayNode.java:53-63 | A reused nested array of length two, copied from a nested array of length one, keeps length two with Missing at the end. So the outer copy differs from the source even though the outer lengths are equal. |
| ArrayNodes.CopyFromShorterPads | sopremo/sopremo-common/src/main/java/eu/stratosphere/sopremo/type/AbstractArrayNode.java:60-63 | Copying from a shorter array does not give the source's values: the extra positions become Missing and nothing is removed. |
| ArrayNodes.ArrayNode.CopyValueFrom | sopremo/sopremo-common/src/main/java/eu/stratosphere/sopremo/type/AbstractArrayNode.java:46-64 | A null argument fails with a null dereference and a non-array with a type mismatch; in both cases nothing changes. Otherwise the values become `CopiedItems` of the old and the incoming values. A slot whose child has the incoming kind keeps the same instance. Every other slot holds the incoming child itself when that child is a singleton or a NullNode, and a fresh clone otherwise. |
| ArrayNodes.ArrayNode.CopyChildren | sopremo/sopremo-common/src/main/java/eu/stratosphere/sopremo/type/AbstractArrayNode.java:49-58 | The copy loop runs over every position below the larger length and leaves the state `CopyValueFrom` promises, copying from itself included. |
| ArrayNodes.ArrayNode.CopySlot | sopremo/sopremo-common/src/main/java/eu/stratosphere/sopremo/type/AbstractArrayNode.java:52-57 | One step of the copy loop. The loop state advances by one position, so the slot holds entry `index` of `CopiedItems`. Earlier positions are left alone. A slot that is not reused holds the incoming child itself when it is a singleton or a NullNode, and a fresh clone otherwise. |
| ArrayNodes.ArrayNode.ReuseSlot | sopremo/sopremo-common/src/main/java/eu/stratosphere/sopremo/type/AbstractArrayNode.java:54-55 | The reusing step. The child list is unchanged, and the copy loop state advances by one position: the reused node now holds entry `index` of `CopiedItems`, which copies a nested array into a nested array element by element. |
| ArrayNodes.ArrayNode.ReplaceSlot | sopremo/sopremo-common/src/main/java/eu/stratosphere/sopremo/type/AbstractArrayNode.java:56-57 | The replacing step. The slot is set, or appended, to the clone; earlier positions are unchanged. |
| ArrayNodes.Encode | sopremo/sopremo-common/src/main/java/eu/stratosphere/sopremo/type/AbstractArrayNode.java:136-141 | The wire form is the child count as a 32-bit int, then one serialized child per element, in order. |
| ArrayNodes.NodeTokens | sopremo/sopremo-common/src/main/java/eu/stratosphere/sopremo/type/AbstractArrayNode.java:139-140 | One serialized child per element, in iteration order. |
| ArrayNodes.DecodeNodesEncoded | sopremo/sopremo-common/src/main/java/eu/stratosphere/sopremo/type/AbstractArrayNode.java:126-127 | Reading n children from what was written for n children gives them back, and the rest of the stream is left unread. |
| ArrayNodes.RoundTrip | sopremo/sopremo-common/src/main/java/eu/stratosphere/sopremo/type/AbstractArrayNode.java:123-141 | Decoding what `write` wrote restores the children and leaves the rest of the stream unread. |
| ArrayNodes.ArrayNode.Write | sopremo/sopremo-common/src/main/java/eu/stratosphere/sopremo/type/AbstractArrayNode.java:136-141 | What is written is the wire form of the node's children, and it decodes to those children with nothing left over. |
| ArrayNodes.ArrayNode.ReadResolve | sopremo/sopremo-common/src/main/java/eu/stratosphere/sopremo/type/AbstractArrayNode.java:123-133 | For the count Integer.MIN_VALUE it reports that the call never returns, with the list emptied. Otherwise it succeeds exactly when the stream holds a count and that many children. The children then become the decoded values, exactly n of them. A slot whose old child had the decoded kind keeps its instance; any other mutable child is fresh. |
| ArrayNodes.ArrayNode.ResolveChildren | sopremo/sopremo-common/src/main/java/eu/stratosphere/sopremo/type/AbstractArrayNode.java:126-127 | The decode loop reads child i with the existing child i as the reuse target. It succeeds exactly when the stream holds n children, and leaves the decoded values in the first n slots. |
| ArrayNodes.ArrayNode.ResolveSlot | sopremo/sopremo-common/src/main/java/eu/stratosphere/sopremo/type/AbstractArrayNode.java:127 | One decode step. It advances the loop state by one position and leaves earlier positions alone. |
| ArrayNodes.ArrayNode.PlaceResolved | sopremo/sopremo-common/src/main/java/eu/stratosphere/sopremo/type/AbstractArrayNode.java:127 | The `set(i, …)` half of a decode step places the decoded node at position i. |
| ArrayNodes.ArrayNode.RemoveFrom | sopremo/sopremo-common/src/main/java/eu/stratosphere/sopremo/type/AbstractArrayNode.java:130-131 | For any 32-bit n above Integer.MIN_VALUE, removing from `size()` down to n ends and leaves the first n children, or all of them when there are fewer. |
| ArrayNodes.Deserialize | sopremo/sopremo-common/src/main/java/eu/stratosphere/sopremo/type/AbstractArrayNode.java:127 | The decoded node has the decoded value. The target is reused when it has the decoded kind and left unchanged otherwise; Null and Missing decode to their singletons. |
| ArrayNodes.ArrayNode.AddAll | sopremo/sopremo-common/src/main/java/eu/stratosphere/sopremo/type/AbstractArrayNode.java:72-82 | The given nodes are appended in order, by reference. |
| ArrayNodes.ContainsFrom | sopremo/sopremo-common/src/main/java/eu/stratosphere/sopremo/type/AbstractArrayNode.java:85-90 | The walk that stops at the first child the node equals is true exactly when the node equals some remaining child. |
| ArrayNodes.ArrayNode.Contains | sopremo/sopremo-common/src/main/java/eu/stratosphere/sopremo/type/AbstractArrayNode.java:85-90 | True exactly when the given node's `equals` holds for some child. A NullNode equals only the shared instance. |
| ArrayNodes.ContainsIsValueMembership | sopremo/sopremo-common/src/main/java/eu/stratosphere/sopremo/type/AbstractArrayNode.java:85-90 | When no NullNode other than the shared instance is involved, `contains` is membership of the node's value among the children's values. |
| ArrayNodes.ArrayNode.GetType | sopremo/sopremo-common/src/main/java/eu/stratosphere/sopremo/type/AbstractArrayNode.java:116-119 | An array node reports the array kind. |
| ArrayNodes.ArrayNode.CompareToSameType | sopremo/sopremo-common/src/main/java/eu/stratosphere/sopremo/type/AbstractArrayNode.java:167-184 | It is 0 exactly when the children's values are equal. In the model, whose child comparisons are -1, 0 or 1, the result is -1, 0 or 1. |
| ArrayNodes.CompareToSameTypeAntisymmetric | sopremo/sopremo-common/src/main/java/eu/stratosphere/sopremo/type/AbstractArrayNode.java:167-184 | Swapping the arrays negates `compareToSameType`. |
| ArrayNodes.PairwiseEqualFrom | sopremo/sopremo-common/src/main/java/eu/stratosphere/sopremo/type/AbstractArrayNode.java:205-209 | The lock-step walk of `equals` is true exactly when the lengths agree and each child's `equals` holds for the other's child at its position. |
| ArrayNodes.ArrayNode.Equals | sopremo/sopremo-common/src/main/java/eu/stratosphere/sopremo/type/AbstractArrayNode.java:197-210 | True for the same object, or for an array of the same length whose children each equal the other's child at their position. False for null and for non-arrays. |
| ArrayNodes.EqualsAgreesWithCompare | sopremo/sopremo-common/src/main/java/eu/stratosphere/sopremo/type/AbstractArrayNode.java:167-210 | When every NullNode among both arrays' children is the shared instance, `equals` agrees with `compareToSameType == 0`. |
| ArrayNodes.StrayNullBreaksEquals | sopremo/sopremo-common/src/main/java/eu/stratosphere/sopremo/type/AbstractArrayNode.java:167-210 | A child built by `new NullNode()` breaks that agreement. `[null]` with the shared instance and `[null]` with a constructed one compare as 0. The first does not equal the second, while the second equals the first. |
| ArrayNodes.ArrayNode.HashCode | sopremo/sopremo-common/src/main/java/eu/stratosphere/sopremo/type/AbstractArrayNode.java:187-193 | The accumulated hash is discarded and the result is always 41. |
| ArrayNodes.EqualArraysHashEqually | sopremo/sopremo-common/src/main/java/eu/stratosphere/sopremo/type/AbstractArrayNode.java:187-210 | Equal arrays have equal hash codes. |
| ArrayNodes.ArrayNode.AppendAsString | sopremo/sopremo-common/src/main/java/eu/stratosphere/sopremo/type/AbstractArrayNode.java:213-224 | The loop with the `first` flag produces the rendering of the array's value: the children's renderings separated by ", " inside brackets, which is `[]` for no children. |
| ArrayNodes.ArrayNode.Copy | sopremo/sopremo-common/src/main/java/eu/stratosphere/sopremo/type/AbstractArrayNode.java:231-235 | The copy is a new array with the same number of children and the same values. Singletons and NullNodes are shared; every other child is a fresh node. |
| StreamNodes.NodeIterator.HasNext | sopremo/sopremo-common/src/main/java/eu/stratosphere/sopremo/type/StreamNode.java:89-91 | The probe is true exactly when elements remain, and it takes nothing. |
| StreamNodes.NodeIterator.Next | sopremo/sopremo-common/src/main/java/eu/stratosphere/sopremo/type/StreamNode.java:115-116 | It hands out the first remaining element and drops it from the producer. |
| StreamNodes.ShortPreviewIsArrayText | sopremo/sopremo-common/src/main/java/eu/stratosphere/sopremo/type/StreamNode.java:108-130 | A stream of at most 100 elements renders exactly as an array with those values; an empty stream renders as `[]`. |
| StreamNodes.LongPreviewIgnoresTail | sopremo/sopremo-common/src/main/java/eu/stratosphere/sopremo/type/StreamNode.java:118-126 | Past 100 elements, only the first 100 affect the text, which ends in `, ...]`. |
| StreamNodes.StreamNode.constructor | sopremo/sopremo-common/src/main/java/eu/stratosphere/sopremo/type/StreamNode.java:36-38 | The stream takes over the given producer. |
| StreamNodes.StreamNode.Empty | sopremo/sopremo-common/src/main/java/eu/stratosphere/sopremo/type/StreamNode.java:44-46 | The no-argument constructor installs the empty producer, so the stream is empty. |
| StreamNodes.StreamNode.GetType | sopremo/sopremo-common/src/main/java/eu/stratosphere/sopremo/type/StreamNode.java:59-61 | The stream reports the array kind. |
| StreamNodes.StreamNode.SetNodeIterator | sopremo/sopremo-common/src/main/java/eu/stratosphere/sopremo/type/StreamNode.java:67-72 | A null producer fails with "nodeIterator must not be null" and the old producer stays; any other producer is installed. |
| StreamNodes.StreamNode.Clear | sopremo/sopremo-common/src/main/java/eu/stratosphere/sopremo/type/StreamNode.java:80-82 | The empty producer is installed, so the stream is empty. |
| StreamNodes.StreamNode.IsEmpty | sopremo/sopremo-common/src/main/java/eu/stratosphere/sopremo/type/StreamNode.java:89-91 | True exactly when the producer has no elements left; nothing is taken from it. |
| StreamNodes.StreamNode.Iterator | sopremo/sopremo-common/src/main/java/eu/stratosphere/sopremo/type/StreamNode.java:98-100 | It returns the stored producer itself. |
| StreamNodes.StreamNode.AppendAsString | sopremo/sopremo-common/src/main/java/eu/stratosphere/sopremo/type/StreamNode.java:108-130 | The text is the bounded preview of the old values. An empty stream writes `[]` and keeps its producer. A non-empty one drains the old producer and installs a fresh one over clones with the same values. Singletons and NullNodes are their own clones; every other clone is a fresh node. |
| StreamNodes.Drain | sopremo/sopremo-common/src/main/java/eu/stratosphere/sopremo/type/StreamNode.java:114-116 | Every remaining element is taken, in order, and cloned; the producer ends empty. A singleton or a NullNode is its own clone, any other element clones to a fresh node. |
| StreamNodes.Preview | sopremo/sopremo-common/src/main/java/eu/stratosphere/sopremo/type/StreamNode.java:110-129 | The rendering of drained elements equals the preview text of their values. |
| StreamNodes.JoinFirstHundred | sopremo/sopremo-common/src/main/java/eu/stratosphere/sopremo/type/StreamNode.java:118-122 | The first element, then ", " and each following one below index 100, joins the first min(n, 100) renderings. |
| StreamNodes.StreamNode.CompareToSameType | sopremo/sopremo-common/src/main/java/eu/stratosphere/sopremo/type/StreamNode.java:165-167 | The result is the difference of the identity hashes in 32-bit arithmetic; it is exact when no overflow occurs. |
| StreamNodes.StreamNode.CompareToSelf | sopremo/sopremo-common/src/main/java/eu/stratosphere/sopremo/type/StreamNode.java:165-167 | A stream compared with itself gives 0. |
| StreamNodes.StreamNode.CompareAntisymmetric | sopremo/sopremo-common/src/main/java/eu/stratosphere/sopremo/type/StreamNode.java:165-167 | For non-negative identity hashes, swapping the operands negates the result, and the sign follows the hashes. |
| StreamNodes.StreamNode.CopyValueFrom | sopremo/sopremo-common/src/main/java/eu/stratosphere/sopremo/type/StreamNode.java:137-139 | It always fails as an unsupported operation. |
| StreamNodes.StreamNode.ReadResolve | sopremo/sopremo-common/src/main/java/eu/stratosphere/sopremo/type/StreamNode.java:146-148 | It always fails as an unsupported operation. |
| StreamNodes.StreamNode.Write | sopremo/sopremo-common/src/main/java/eu/stratosphere/sopremo/type/StreamNode.java:155-158 | It always fails as an unsupported operation, with the message that the stream must first be materialized. |
| StreamNodes.StreamNode.HashCode | sopremo/sopremo-common/src/main/java/eu/stratosphere/sopremo/type/StreamNode.java:174-176 | The result is always 42. |
| StreamNodes.IterateAll | sopremo/sopremo-common/src/main/java/eu/stratosphere/sopremo/type/StreamNode.java:98-100 | A for-each over `iterator()` yields the stream's elements in order and leaves the stream empty. |
| StreamNodes.IterateTwice | sopremo/sopremo-common/src/main/java/eu/stratosphere/sopremo/type/StreamNode.java:98-100 | A second iteration yields nothing. |
| NullNodes.GetInstance | sopremo/sopremo-common/src/main/java/eu/stratosphere/sopremo/type/NullNode.java:37-39 | It always returns the shared instance. |
| NullNodes.Canonicalize | sopremo/sopremo-common/src/main/java/eu/stratosphere/sopremo/type/NullNode.java:53-55 | Every null node canonicalizes to the shared instance. |
| NullNodes.Clone | sopremo/sopremo-common/src/main/java/eu/stratosphere/sopremo/type/NullNode.java:77-79 | A clone is the receiver itself. |
| NullNodes.Equals | sopremo/sopremo-common/src/main/java/eu/stratosphere/sopremo/type/NullNode.java:47-50 | True exactly when the argument is the shared instance. |
| NullNodes.HashCode | sopremo/sopremo-common/src/main/java/eu/stratosphere/sopremo/type/NullNode.java:92-94 | The result is always 37. |
| NullNodes.CompareToSameType | sopremo/sopremo-common/src/main/java/eu/stratosphere/sopremo/type/NullNode.java:87-89 | The result is always 0. |
| NullNodes.IsNull | sopremo/sopremo-common/src/main/java/eu/stratosphere/sopremo/type/NullNode.java:67-69 | The result is always true. |
| NullNodes.GetType | sopremo/sopremo-common/src/main/java/eu/stratosphere/sopremo/type/NullNode.java:72-74 | The result is always the null kind. |
| NullNodes.AppendAsString | sopremo/sopremo-common/src/main/java/eu/stratosphere/sopremo/type/NullNode.java:42-44 | The text is `null`, as in an array's rendering of a null child. |
| NullNodes.Write | sopremo/sopremo-common/src/main/java/eu/stratosphere/sopremo/type/NullNode.java:63-64 | Nothing is written to the stream. |
| NullNodes.ReadResolve | sopremo/sopremo-common/src/main/java/eu/stratosphere/sopremo/type/NullNode.java:58-60 | Nothing is read and the result is the shared instance. |
| NullNodes.CopyValueFrom | sopremo/sopremo-common/src/main/java/eu/stratosphere/sopremo/type/NullNode.java:82-84 | It succeeds exactly for a null node. Null fails with a null dereference and another node kind with a type mismatch. |
| NullNodes.Clear | sopremo/sopremo-common/src/main/java/eu/stratosphere/sopremo/type/NullNode.java:97-98 | The node is unchanged. |
| NullNodes.RoundTrip | sopremo/sopremo-common/src/main/java/eu/stratosphere/sopremo/type/NullNode.java:58-64 | Reading what was written gives the canonical instance and leaves the stream unread. |
| NullNodes.EqualsConsistentWithHashCode | sopremo/sopremo-common/src/main/java/eu/stratosphere/sopremo/type/NullNode.java:47-50 | Only the instance is ever equal, and equal null nodes hash alike. |
| NullNodes.EqualsOnlyTheInstance | sopremo/sopremo-common/src/main/java/eu/stratosphere/sopremo/type/NullNode.java:29-50 | A node made by the public constructor is not equal to itself, and `equals` between it and the instance is not symmetric. |
| NullNodes.CloneOfInstanceIsInstance | sopremo/sopremo-common/src/main/java/eu/stratosphere/sopremo/type/NullNode.java:53-79 | The instance clones to itself, canonicalizing is idempotent, and every null node equals its canonical form. |
| TypedNodes.Stored | sopremo/sopremo-common/src/main/java/eu/stratosphere/sopremo/type/typed/TypedObjectNode.java:142-146 | A null value is stored as the null instance; any other value is stored as itself. |
| TypedNodes.Exposed | sopremo/sopremo-common/src/main/java/eu/stratosphere/sopremo/type/typed/TypedObjectNode.java:149-154 | The null and missing instances read as the null reference; any other node reads as itself. |
| TypedNodes.GetAfterPut | sopremo/sopremo-common/src/main/java/eu/stratosphere/sopremo/type/typed/TypedObjectNode.java:142-154 | Reading a field after a put gives null for a null value and the exposed value otherwise. Other fields are unaffected. |
| TypedNodes.NullAndAbsentLookAlike | sopremo/sopremo-common/src/main/java/eu/stratosphere/sopremo/type/typed/TypedObjectNode.java:142-154 | A field set to null and an absent field both read as null. |
| TypedNodes.ObjectNode.CopyValueFrom | sopremo/sopremo-common/src/main/java/eu/stratosphere/sopremo/type/typed/TypedObjectNode.java:64-66 | Null fails with a null dereference and a non-object with a type mismatch, and nothing changes. An object or a view gives its field map, which is then shared. |
| TypedNodes.TypedObjectNode.constructor | sopremo/sopremo-common/src/main/java/eu/stratosphere/sopremo/type/typed/TypedObjectNode.java:30-32 | A new view is bound to a fresh, empty object node. |
| TypedNodes.TypedObjectNode.Clone | sopremo/sopremo-common/src/main/java/eu/stratosphere/sopremo/type/typed/TypedObjectNode.java:35-46 | A clone is a fresh view of the same interface, over a fresh backing node with the same field map. It never shares the original's backing node; the nodes under the fields are shared (see Left out). |
| TypedNodes.TypedObjectNode.Clear | sopremo/sopremo-common/src/main/java/eu/stratosphere/sopremo/type/typed/TypedObjectNode.java:49-51 | The backing node is emptied. |
| TypedNodes.TypedObjectNode.CopyValueFrom | sopremo/sopremo-common/src/main/java/eu/stratosphere/sopremo/type/typed/TypedObjectNode.java:64-66 | It forwards to the backing node. Null fails with a null dereference and a non-object with a type mismatch, leaving the fields unchanged; an object or a view gives its field map. |
| TypedNodes.TypedObjectNode.ReadResolve | sopremo/sopremo-common/src/main/java/eu/stratosphere/sopremo/type/typed/TypedObjectNode.java:74-77 | The backing node reads the fields, and the view itself is returned. |
| TypedNodes.TypedObjectNode.Write | sopremo/sopremo-common/src/main/java/eu/stratosphere/sopremo/type/typed/TypedObjectNode.java:80-82 | What is written is the backing node's content. |
| TypedNodes.TypedObjectNode.Put | sopremo/sopremo-common/src/main/java/eu/stratosphere/sopremo/type/typed/TypedObjectNode.java:142-146 | The field is set in the backing node, a null value as the null instance, and the backing node is returned. Reading the field back gives null for a null value and the value otherwise. |
| TypedNodes.TypedObjectNode.Get | sopremo/sopremo-common/src/main/java/eu/stratosphere/sopremo/type/typed/TypedObjectNode.java:149-154 | The result is null exactly for an absent field or a stored null or missing instance; otherwise it is the stored node. |
| TypedNodes.TypedObjectNode.GetAs | sopremo/sopremo-common/src/main/java/eu/stratosphere/sopremo/type/typed/TypedObjectNode.java:157-168 | An absent field gives null. A node of the desired class is returned itself. For a typed interface the result is a new view over the stored object node, or a cast failure for a non-object. Any other class fails with "The data object in the backing object was not of the desired type." |
| TypedNodes.TryToWrap | sopremo/sopremo-common/src/main/java/eu/stratosphere/sopremo/type/typed/TypedObjectNode.java:170-176 | The result is a fresh view of the interface whose backing node is the stored object node itself, not a copy. A stored non-object fails the cast. |
| TypedNodes.TypedObjectNode.Remove | sopremo/sopremo-common/src/main/java/eu/stratosphere/sopremo/type/typed/TypedObjectNode.java:179-181 | The field is removed from the backing node and then reads as null. |
| TypedNodes.TypedObjectNode.PutAll | sopremo/sopremo-common/src/main/java/eu/stratosphere/sopremo/type/typed/TypedObjectNode.java:184-186 | Every field of the other object is put into the backing node, replacing one with the same name, and the backing node is returned. |
| TypedNodes.TypedObjectNode.Size | sopremo/sopremo-common/src/main/java/eu/stratosphere/sopremo/type/typed/TypedObjectNode.java:194-196 | The result is the backing node's size. |
| TypedNodes.TypedObjectNode.GetBackingNode | sopremo/sopremo-common/src/main/java/eu/stratosphere/sopremo/type/typed/TypedObjectNode.java:199-201 | It returns the backing node itself. |
| TypedNodes.TypedObjectNode.SetBackingNode | sopremo/sopremo-common/src/main/java/eu/stratosphere/sopremo/type/typed/TypedObjectNode.java:204-206 | The view forwards to the given node, which is not copied. |
| TypedNodes.PutThroughSharedBacking | sopremo/sopremo-common/src/main/java/eu/stratosphere/sopremo/type/typed/TypedObjectNode.java:142-154 | A value put through one view is read back through another view over the same node. |
| TypedNodes.PutThroughWrappedView | sopremo/sopremo-common/src/main/java/eu/stratosphere/sopremo/type/typed/TypedObjectNode.java:157-176 | A put through a view unwrapped from a stored object node changes that stored node. |
| RemoteReceivers.IntRoundTrip | nephele/nephele-server/src/main/java/eu/stratosphere/nephele/taskmanager/routing/RemoteReceiver.java:141-157 | A 32-bit int written as four big-endian bytes reads back as itself. |
| RemoteReceivers.GetByAddress | nephele/nephele-server/src/main/java/eu/stratosphere/nephele/taskmanager/routing/RemoteReceiver.java:163-167 | Four or sixteen bytes make an address, and an IPv4-mapped address becomes its IPv4 address. Any other length is an unknown host. |
| RemoteReceivers.NewSocketAddress | nephele/nephele-server/src/main/java/eu/stratosphere/nephele/taskmanager/routing/RemoteReceiver.java:169 | A socket address is made exactly when the port lies in 0..65535. |
| RemoteReceivers.ReadBytes | nephele/nephele-server/src/main/java/eu/stratosphere/nephele/taskmanager/routing/RemoteReceiver.java:159-160 | The result always has the requested length. It takes the bytes available, and positions past the end of the stream stay zero. |
| RemoteReceivers.Encode | nephele/nephele-server/src/main/java/eu/stratosphere/nephele/taskmanager/routing/RemoteReceiver.java:141-148 | The wire form is index, port, address length and address bytes: twelve bytes plus the address. |
| RemoteReceivers.RoundTrip | nephele/nephele-server/src/main/java/eu/stratosphere/nephele/taskmanager/routing/RemoteReceiver.java:141-170 | Reading what `write` wrote restores address and index and leaves the rest of the stream unread. |
| RemoteReceivers.ReadTakesNegativeIndex | nephele/nephele-server/src/main/java/eu/stratosphere/nephele/taskmanager/routing/RemoteReceiver.java:154-170 | `read` does not repeat the constructor's check: a negative index on the stream is accepted. |
| RemoteReceivers.MappedAddressReadsAsIPv4 | nephele/nephele-server/src/main/java/eu/stratosphere/nephele/taskmanager/routing/RemoteReceiver.java:154-170 | Sixteen bytes holding an IPv4-mapped address are read back as the four-byte address. |
| RemoteReceivers.NatToString | nephele/nephele-server/src/main/java/eu/stratosphere/nephele/taskmanager/routing/RemoteReceiver.java:134 | A number is written as at least one decimal digit. |
| RemoteReceivers.IntToStringRoundTrip | nephele/nephele-server/src/main/java/eu/stratosphere/nephele/taskmanager/routing/RemoteReceiver.java:134 | The decimal text of the index reads back as the index, with a minus sign exactly for negatives. |
| RemoteReceivers.RemoteReceiver.constructor | nephele/nephele-server/src/main/java/eu/stratosphere/nephele/taskmanager/routing/RemoteReceiver.java:64-65 | Once the checks pass, the receiver holds the given address and index. |
| RemoteReceivers.RemoteReceiver.Create | nephele/nephele-server/src/main/java/eu/stratosphere/nephele/taskmanager/routing/RemoteReceiver.java:54-66 | A null address fails with "Argument connectionAddress must not be null". A negative index fails with "Argument connectionIndex must be a non-negative integer number". Otherwise a new receiver holds both. |
| RemoteReceivers.RemoteReceiver.HashCode | nephele/nephele-server/src/main/java/eu/stratosphere/nephele/taskmanager/routing/RemoteReceiver.java:101-104 | The hash is the address hash plus 31 times the index, in 32-bit arithmetic. |
| RemoteReceivers.RemoteReceiver.Equals | nephele/nephele-server/src/main/java/eu/stratosphere/nephele/taskmanager/routing/RemoteReceiver.java:110-126 | True exactly for a remote receiver with an equal address and the same index. |
| RemoteReceivers.RemoteReceiver.Write | nephele/nephele-server/src/main/java/eu/stratosphere/nephele/taskmanager/routing/RemoteReceiver.java:141-148 | What is written reads back as this receiver's address and index. |
| RemoteReceivers.RemoteReceiver.Read | nephele/nephele-server/src/main/java/eu/stratosphere/nephele/taskmanager/routing/RemoteReceiver.java:154-170 | The index is overwritten as soon as four bytes are read. The read succeeds exactly when `Decode` does, and then address, index and rest are the decoded ones. On failure the address is unchanged and the error is the decoding error. |
| RemoteReceivers.EqualsIsSymmetric | nephele/nephele-server/src/main/java/eu/stratosphere/nephele/taskmanager/routing/RemoteReceiver.java:110-126 | `equals` is reflexive and symmetric. |
| RemoteReceivers.EqualReceiversHashAlike | nephele/nephele-server/src/main/java/eu/stratosphere/nephele/taskmanager/routing/RemoteReceiver.java:101-126 | Equal receivers hash alike, whatever the address hash. |
| RemoteReceivers.ToStringShowsIndex | nephele/nephele-server/src/main/java/eu/stratosphere/nephele/taskmanager/routing/RemoteReceiver.java:132-135 | The text starts with the address text and " (" and ends with ")". The index can be read back from between them. |
| PackageManagers.IndexFrom | sopremo/sopremo-query/src/main/java/eu/stratosphere/sopremo/query/PackageManager.java:149 | The result is the first occurrence at or after the start position, or -1 when there is none. |
| PackageManagers.IndexOf | sopremo/sopremo-query/src/main/java/eu/stratosphere/sopremo/query/PackageManager.java:149 | The result is -1 exactly when the name does not occur; otherwise it is the first occurrence. |
| PackageManagers.Fields | sopremo/sopremo-query/src/main/java/eu/stratosphere/sopremo/query/PackageManager.java:148 | Splitting gives at least one field, and no field holds the separator. |
| PackageManagers.FieldsRoundTrip | sopremo/sopremo-query/src/main/java/eu/stratosphere/sopremo/query/PackageManager.java:148 | Joining the fields with the separator gives the classpath back. |
| PackageManagers.DropTrailingEmpty | sopremo/sopremo-query/src/main/java/eu/stratosphere/sopremo/query/PackageManager.java:148 | The result is a prefix that does not end in an empty string, and only empty strings are dropped. |
| PackageManagers.JavaSplit | sopremo/sopremo-query/src/main/java/eu/stratosphere/sopremo/query/PackageManager.java:148 | Without the separator the classpath is one entry. No entry contains the separator, and when the separator occurs the last entry is not empty. |
| PackageManagers.SplitRoundTrip | sopremo/sopremo-query/src/main/java/eu/stratosphere/sopremo/query/PackageManager.java:148 | When the separator occurs, the entries joined with it, followed by the empty fields `split` dropped, give the classpath back. |
| PackageManagers.SplitDropsNothingFindable | sopremo/sopremo-query/src/main/java/eu/stratosphere/sopremo/query/PackageManager.java:148-163 | Dropping the empty entries does not change which entry is found. |
| PackageManagers.FirstQualifyingIndex | sopremo/sopremo-query/src/main/java/eu/stratosphere/sopremo/query/PackageManager.java:148-163 | No entry before the result qualifies, and the entry at the result does when there is one. |
| PackageManagers.FirstQualifying | sopremo/sopremo-query/src/main/java/eu/stratosphere/sopremo/query/PackageManager.java:148-163 | The result is none exactly when no entry qualifies; otherwise it is a qualifying entry of the classpath. |
| PackageManagers.FirstQualifyingAt | sopremo/sopremo-query/src/main/java/eu/stratosphere/sopremo/query/PackageManager.java:148-163 | When no entry before n qualifies and the entry at n does, that entry is the one found; with n at the end, none is found. |
| PackageManagers.FindPackageInClassPath | sopremo/sopremo-query/src/main/java/eu/stratosphere/sopremo/query/PackageManager.java:144-164 | The result is the first classpath entry, in order, that qualifies for "sopremo-" + name, or none. An entry qualifies when the first occurrence of that string is at its start or after a file separator, and is followed by its end, a file separator, '.' or '-'. |
| PackageManagers.OnlyFirstOccurrenceCounts | sopremo/sopremo-query/src/main/java/eu/stratosphere/sopremo/query/PackageManager.java:149-159 | An entry whose first occurrence is badly placed is passed over even when a later occurrence is well placed. |
| PackageManagers.PackageManager.constructor | sopremo/sopremo-query/src/main/java/eu/stratosphere/sopremo/query/PackageManager.java:44-46 | A new manager has no packages and `.` as its only jar path location. |
| PackageManagers.PackageManager.AddJarPathLocation | sopremo/sopremo-query/src/main/java/eu/stratosphere/sopremo/query/PackageManager.java:190-195 | Null fails with "jarPathLocation must not be null" and changes nothing. Any other location is appended to the list. |
| PackageManagers.PackageManager.GetPackageInfo | sopremo/sopremo-query/src/main/java/eu/stratosphere/sopremo/query/PackageManager.java:78-102 | A cached package is returned without any lookup. Otherwise the classpath is searched first, then the jar locations, and the package found is imported and cached under its name. "no package … found" and "could not load package …" leave the cache unchanged. |
| PackageManagers.GetPackageInfoTwice | sopremo/sopremo-query/src/main/java/eu/stratosphere/sopremo/query/PackageManager.java:78-102 | After a successful lookup, asking again gives the same package, served from the cache. |

## Left out

Left out for I/O, platform or reflection reasons:

- `ArrayNode`, `ObjectNode`, `MissingNode`, the scalar nodes, `AbstractJsonNode`, `SopremoUtil`, Kryo and
  `InetSocketAddress` are not part of this model. In their place:
  - the child list is a sequence of references;
  - on the side being read, `get` past the end yields the Missing instance;
  - on the receiving side of a copy, a position past the end has no reusable child, so the copy loop
    always sets or appends the incoming child's clone there;
  - the decoder calls `set` at every position whatever its reuse target, so the Missing instance it
    passes as the target past the end changes nothing;
  - `set` one past the end appends, and `remove` outside the list does nothing;
  - `isCopyable` and `checkForSameType` are kind equality;
  - a serialized child is one token holding its value;
  - the node modules share one stream type, `Nodes.Token`: ints and whole serialized nodes. The null
    node writes nothing, so its codec is the identity on that stream. The typed view reads and writes
    the backing node's field map, because the object node's codec is not part of this model. The remote
    receiver is in another subsystem and writes raw `DataOutput` bytes, so its codec stays on bytes;
  - `deserializeNode` reuses a target of the decoded kind and otherwise makes a singleton or a fresh node;
  - an object node is a map from field names to nodes, and its `clone` is shallow;
  - a socket address is its address bytes and port.
- Nodes.Compare: comparison across node kinds belongs to `AbstractJsonNode`, which is not part of this
  model. The model orders kinds as Null, Missing, Array, then scalars by type tag, and reduces every
  cross-kind result to its sign. So "-1, 0 or 1" in `Nodes.LexCompareRange` and
  `ArrayNodes.ArrayNode.CompareToSameType` holds for the model, while the code passes a child's
  `compareTo` result through unchanged.
- Nodes.TextCompare: scalar comparisons are normalised to -1, 0 and 1, because scalar nodes are not part
  of this model.
- ArrayNodes.ArrayNode.CopyValueFrom and ArrayNodes.ArrayNode.ReadResolve require that no mutable child
  object sits in two slots of one array, or at different positions of the two arrays. The in-place
  updates are proved only under that ownership assumption.
- ArrayNodes.ArrayNode.ReadResolve: on a stream that ends early, the model states nothing about the
  children decoded so far. The I/O exception ends the operation there.
- Nodes.CopiedItems, ArrayNodes.ArrayNode.CopyValueFrom and ArrayNodes.ArrayNode.Copy: past the receiver's
  end the model never reuses, so it installs every incoming child there, Missing included. The model
  makes this choice because `ArrayNode.get` is not part of it. If `get` returned the Missing instance there
  and `isCopyable` accepted it, an incoming Missing would be copied into that instance and never `set`.
  Copying `[Missing]` into `[]` would then leave `[]` where the model gives `[Missing]`.
- ArrayNodes.ArrayNode.ReadResolve and ArrayNodes.ArrayNode.RemoveFrom: for the count Integer.MIN_VALUE
  the removal loop `i >= len; i--` never ends, because every int is at least that count. `ReadResolve`
  returns with `hangs` set and the list emptied instead, and `RemoveFrom` requires a count above
  Integer.MIN_VALUE. `Decode` has no result for that count.
- ArrayNodes.Encode, ArrayNodes.RoundTrip and ArrayNodes.ArrayNode.Write require fewer than 2^31
  children, since the count is written as a Java `int` and a Java list is no longer than that.
- `AbstractArrayNode.asCollection`, `clone`, `toArray` and `fillArray` are left out. Their
  iterator and array-cache plumbing is not part of the record model.
- `StreamNode` uses a shared empty iterator, which is passed to `Empty` and `Clear` as a parameter.
  `readObject` and `getNodeIterator` are left out.
- StreamNodes.StreamNode.CompareToSameType: `System.identityHashCode` is a parameter.
- The typed views' read-only forwarders are left out: `getType`, `canonicalize`, `isCopyable`, the
  `is…` tests, `compareTo`, `compareToSameType`, the normalized keys, `appendAsString`,
  `copyPropertiesFrom` and `iterator`. They return what the object node returns, and the object node
  is not part of this model.
- TypedNodes.TypedObjectNode.Clone is a shallow copy: the new backing node gets the same field map, so
  every nested object node, view and other node is shared with the original, and a change made through a
  nested node of the clone is seen in the original. The clone of the backing object node is promised to be
  deep, but the object node's own `clone` is not part of this model. The reflection failure branch, which
  prints a stack trace and returns null, is left out as well.
- TypedNodes.ObjectNode.CopyValueFrom and TypedNodes.TypedObjectNode.CopyValueFrom take over the other
  object's field map, so afterwards both objects hold the same child nodes. The object node's reusing
  copy, which would update its own children in place, is not part of this model.
- ArrayNodes.ArrayNode.Equals and ArrayNodes.ArrayNode.Contains tell a constructed NullNode from the shared
  one only among the array's own children. Inside a nested array, children are values, so a nested
  constructed NullNode compares as the shared one.
- A null argument to `copyValueFrom` fails inside `AbstractJsonNode.checkForSameType`, which is not part
  of this model. The model reports it as a null dereference without a message.
- TypedNodes.TryToWrap: for a stored view, the new view is bound to that view's backing node rather than
  to the view itself. Both forward every read and write to the same object node.
- The remote receiver's private no-argument constructor for Kryo, and its accessors, are left out.
- RemoteReceivers.RemoteReceiver.HashCode and RemoteReceivers.RemoteReceiver.ToString take the address's
  `hashCode` and `toString` as parameters.
- RemoteReceivers.RemoteReceiver.Equals compares addresses as address bytes and port.
- `InetAddress.getByAddress` and the port check of `InetSocketAddress` follow their JDK documentation.
  Host names are not modelled.
- PackageManagers.PackageManager.GetPackageInfo takes several things as parameters:
  - the classpath and the separator characters, read from system properties;
  - `findPackageInJarPathLocations`, a directory scan with a regular expression;
  - whether `importFrom` succeeds, which needs class loading.

  The `MalformedURLException` branch and the debug log line are left out.
- The package manager's registry stacks, `importPackage`, `getImportedPackages` and `toString` are left
  out. They manage registries that are not part of this model.

=== FILE: array_node.dfy ===
/**
 * The array node (AbstractArrayNode over the concrete ArrayNode storage): an
 * ordered list of child references that is reused in place on copy and on
 * decode, compared lexicographically and written count-prefixed.
 *
 * ArrayNode itself is not part of this model. Its storage is a sequence of
 * child references. On the side being read, `get` past the end yields the
 * Missing singleton; on the receiving side of a copy there is no reusable
 * child past the end, so that position is always set. `set` one past the end
 * appends; `remove` outside the list does nothing.
 */
module ArrayNodes {
  import opened Wrappers
  import opened Nodes

  /** A Java reference handed to `equals` or `copyValueFrom`. */
  datatype Ref = NullRef | NonArrayRef | ArrayRef(arr: ArrayNode)

  /** No mutable node object occupies two slots of one array. */
  predicate Exclusive(cs: seq<Child>)
  {
    forall i, j :: 0 <= i < |cs| && 0 <= j < |cs| && cs[i].Node? && cs[i] == cs[j] ==> i == j
  }

  /** A mutable node shared between two arrays sits at the same position in both. */
  predicate Apart(cs: seq<Child>, ds: seq<Child>)
  {
    forall i, j :: 0 <= i < |cs| && 0 <= j < |ds| && cs[i].Node? && cs[i] == ds[j] ==> i == j
  }

  /** What `array.get(i)` hands to the copy loop: the child, or Missing past the end. */
  function Incoming(cs: seq<Child>, i: nat): Child
  {
    if i < |cs| then cs[i] else MissingInstance
  }

  /**
   * Copying from an array no shorter, in which no reused array at any depth is
   * longer than its counterpart, leaves an array equal to the source.
   */
  lemma {:induction false} CopyFromLongerIsEqual(mine: seq<Value>, theirs: seq<Value>)
    requires Fits(mine, theirs)
    ensures CopiedItems(mine, theirs) == theirs
    decreases mine
  {
    forall i | 0 <= i < |theirs|
      ensures CopiedItems(mine, theirs)[i] == theirs[i]
    {
      if Reuses(mine, theirs, i) && mine[i].Array? && theirs[i].Array? {
        CopyFromLongerIsEqual(mine[i].items, theirs[i].items);
      }
    }
  }

  /** Copying from a shorter array keeps the receiver's length and pads with Missing. */
  lemma CopyFromShorterPads(mine: seq<Value>, theirs: seq<Value>)
    requires |theirs| < |mine|
    ensures CopiedItems(mine, theirs) != theirs
    ensures CopiedItems(mine, theirs)[|theirs|..] == seq(|mine| - |theirs|, _ => Missing)
  {
    assert |CopiedItems(mine, theirs)| == |mine|;
  }

  /**
   * A reused nested array is itself copied into, with padding: copying `[[c]]`
   * into `[[a, b]]` gives `[[c, Missing]]`, not `[[c]]`.
   */
  lemma NestedCopyPads(a: Value, b: Value, c: Value)
    requires !a.Array? && !c.Array?
    ensures CopiedItems([Array([a, b])], [Array([c])]) == [Array([c, Missing])]
    ensures CopiedItems([Array([a, b])], [Array([c])]) != [Array([c])]
  {
    assert CopiedItems([a, b], [c]) == [c, Missing];
  }

  /** The wire form written by `write`: the child count, then each child in order. */
  function Encode(items: seq<Value>): (r: seq<Token>)
    requires |items| < 0x8000_0000
    ensures |r| == |items| + 1 && r[0] == IntTok(|items|)
    ensures forall i :: 0 <= i < |items| ==> r[i + 1] == NodeTok(items[i])
  {
    [IntTok(|items|)] + NodeTokens(items)
  }

  /** One token per child, in order. */
  function NodeTokens(items: seq<Value>): (r: seq<Token>)
    ensures |r| == |items|
    ensures forall i :: 0 <= i < |items| ==> r[i] == NodeTok(items[i])
  {
    if items == [] then [] else [NodeTok(items[0])] + NodeTokens(items[1..])
  }

  function Prepend(vs: seq<Value>, r: Option<(seq<Value>, seq<Token>)>): Option<(seq<Value>, seq<Token>)>
  {
    match r
    case None => None
    case Some((ws, rest)) => Some((vs + ws, rest))
  }

  /** Reads n serialized children; None when the stream ends early or holds something else. */
  function DecodeNodes(input: seq<Token>, n: nat): Option<(seq<Value>, seq<Token>)>
    decreases n
  {
    if n == 0 then Some(([], input))
    else if input == [] || !input[0].NodeTok? then None
    else Prepend([input[0].v], DecodeNodes(input[1..], n - 1))
  }

  /**
   * The children `readResolve` ends up with, and the unread rest of the stream.
   * A negative count reads nothing; for the count Integer.MIN_VALUE `readResolve`
   * never returns (see `ArrayNode.ReadResolve`), so there is no result.
   */
  function Decode(input: seq<Token>): Option<(seq<Value>, seq<Token>)>
  {
    if input == [] || !input[0].IntTok? || input[0].i == -0x8000_0000 then None
    else DecodeNodes(input[1..], if input[0].i < 0 then 0 else input[0].i)
  }

  lemma {:induction false} DecodeNodesEncoded(items: seq<Value>, rest: seq<Token>)
    ensures DecodeNodes(NodeTokens(items) + rest, |items|) == Some((items, rest))
    decreases |items|
  {
    if items != [] {
      var input := NodeTokens(items) + rest;
      assert input == [NodeTok(items[0])] + (NodeTokens(items[1..]) + rest);
      assert input[1..] == NodeTokens(items[1..]) + rest;
      DecodeNodesEncoded(items[1..], rest);
      calc {
        DecodeNodes(input, |items|);
        Prepend([items[0]], DecodeNodes(input[1..], |items| - 1));
        Prepend([items[0]], Some((items[1..], rest)));
        { assert [items[0]] + items[1..] == items; }
        Some((items, rest));
      }
    } else {
      assert NodeTokens(items) + rest == rest;
    }
  }

  /** Reading what `write` wrote restores the children and leaves the rest of the stream unread. */
  lemma RoundTrip(items: seq<Value>, rest: seq<Token>)
    requires |items| < 0x8000_0000
    ensures Decode(Encode(items) + rest) == Some((items, rest))
  {
    DecodeNodesEncoded(items, rest);
    assert (Encode(items) + rest)[1..] == NodeTokens(items) + rest;
  }

  lemma PrependEmpty(r: Option<(seq<Value>, seq<Token>)>)
    ensures Prepend([], r) == r
  {
    if r.Some? {
      assert [] + r.value.0 == r.value.0;
    }
  }

  lemma PrependAssoc(vs: seq<Value>, v: Value, r: Option<(seq<Value>, seq<Token>)>)
    ensures Prepend(vs, Prepend([v], r)) == Prepend(vs + [v], r)
  {
    if r.Some? {
      assert vs + ([v] + r.value.0) == (vs + [v]) + r.value.0;
    }
  }

  /** The walk of `contains` from position k: whether `node` equals some child at or after k. */
  function ContainsFrom(cs: seq<Child>, node: Child, k: nat): (r: bool)
    requires k <= |cs|
    reads AllObjects(cs), Objects(node)
    ensures r <==> exists i :: k <= i < |cs| && ChildEquals(node, cs[i])
    decreases |cs| - k
  {
    if k == |cs| then false
    else if ChildEquals(node, cs[k]) then true
    else ContainsFrom(cs, node, k + 1)
  }

  /**
   * The iterator walk of `equals` from position k: each child equals the other's
   * child at its position while both have children, and both run out together.
   */
  function PairwiseEqualFrom(xs: seq<Child>, ys: seq<Child>, k: nat): (r: bool)
    requires k <= |xs| && k <= |ys|
    reads AllObjects(xs), AllObjects(ys)
    ensures r <==> |xs| == |ys| && forall i :: k <= i < |xs| ==> ChildEquals(xs[i], ys[i])
    decreases |xs| - k
  {
    if k == |xs| || k == |ys| then |xs| == |ys|
    else if !ChildEquals(xs[k], ys[k]) then false
    else PairwiseEqualFrom(xs, ys, k + 1)
  }

  /**
   * `SopremoUtil.deserializeNode(in, target)`, which is not part of this model:
   * the target is reused when it has the decoded kind, otherwise the decoded
   * node is a singleton or a fresh node.
   */
  method Deserialize(v: Value, target: Child) returns (c: Child)
    modifies Objects(target)
    ensures ValueOf(c) == v
    ensures KindOf(old(ValueOf(target))) == KindOf(v) ==> c == target
    ensures KindOf(old(ValueOf(target))) != KindOf(v) ==> ValueOf(target) == old(ValueOf(target))
    ensures KindOf(old(ValueOf(target))) != KindOf(v) ==>
      (c.Node? ==> fresh(c.node)) && (v == Null <==> c == NullInstance) && (v == Missing <==> c == MissingInstance)
  {
    if KindOf(ValueOf(target)) == KindOf(v) {
      if target.Node? {
        target.node.value := v;
      }
      c := target;
    } else if v == Null {
      c := NullInstance;
    } else if v == Missing {
      c := MissingInstance;
    } else {
      var n := new JsonNode(v);
      c := Node(n);
    }
  }

  class ArrayNode {
    var children: seq<Child>

    constructor ()
      ensures children == []
    {
      children := [];
    }

    /** The values of the children, in order. */
    function Items(): seq<Value>
      reads this, AllObjects(children)
    {
      ValuesOf(children)
    }

    /**
     * `copyValueFrom`: after the type check, every position below the larger of
     * the two lengths either keeps its node, updated in place, when that node has
     * the incoming child's kind, or is set to a clone of the incoming child. The
     * trailing add and remove loops start at that larger length and never run.
     */
    method CopyValueFrom(other: Ref) returns (err: Option<Error>)
      requires other.ArrayRef? ==> Exclusive(children) && Apart(children, other.arr.children)
      modifies this, AllObjects(children)
      ensures err.None? <==> other.ArrayRef?
      ensures err == Some(NullDereference) <==> other.NullRef?
      ensures other.NonArrayRef? ==> err == Some(TypeMismatch)
      ensures err.Some? ==> unchanged(this) && unchanged(AllObjects(children))
      ensures other.ArrayRef? ==> |children| == Max(|old(children)|, |old(other.arr.children)|)
      ensures other.ArrayRef? ==> Items() == CopiedItems(old(Items()), old(other.arr.Items()))
      ensures other.ArrayRef? ==> forall i :: 0 <= i < |children| && Reuses(old(Items()), old(other.arr.Items()), i) ==>
        children[i] == old(children)[i]
      ensures other.ArrayRef? ==> forall i :: 0 <= i < |children| && !Reuses(old(Items()), old(other.arr.Items()), i) ==>
        if SelfCloning(Incoming(old(other.arr.children), i), IncomingValue(old(other.arr.Items()), i))
        then children[i] == Incoming(old(other.arr.children), i)
        else children[i].Node? && fresh(children[i].node)
    {
      if other.NullRef? {
        return Some(NullDereference);
      } else if other.NonArrayRef? {
        return Some(TypeMismatch);
      }
      err := None;
      CopyChildren(other.arr, Items(), other.arr.Items());
    }

    /** The copy loop of `copyValueFrom`, from position 0 up to the larger of the two lengths. */
    method CopyChildren(source: ArrayNode, ghost mine: seq<Value>, ghost theirs: seq<Value>)
      requires Exclusive(children) && Apart(children, source.children)
      requires mine == Items() && theirs == source.Items()
      modifies this, AllObjects(children)
      ensures |children| == Max(|old(children)|, |old(source.children)|)
      ensures forall k :: 0 <= k < |children| ==> ValueOf(children[k]) == CopiedItems(mine, theirs)[k]
      ensures forall k :: 0 <= k < |children| && Reuses(mine, theirs, k) ==> children[k] == old(children)[k]
      ensures forall k :: 0 <= k < |children| && !Reuses(mine, theirs, k) ==>
        if SelfCloning(Incoming(old(source.children), k), IncomingValue(theirs, k))
        then children[k] == Incoming(old(source.children), k)
        else children[k].Node? && fresh(children[k].node)
    {
      ghost var original, sourceChildren := children, source.children;
      var index := 0;
      var length := Max(|children|, |source.children|);
      while index < length
        invariant 0 <= index <= length == Max(|original|, |sourceChildren|)
        invariant original == old(children) && sourceChildren == old(source.children)
        invariant CopiedUpTo(index, source, original, sourceChildren, mine, theirs)
        invariant forall k :: 0 <= k < index && !Reuses(mine, theirs, k) ==>
          if SelfCloning(Incoming(sourceChildren, k), IncomingValue(theirs, k))
          then children[k] == Incoming(sourceChildren, k)
          else children[k].Node? && fresh(children[k].node)
      {
        CopySlot(index, source, original, sourceChildren, mine, theirs);
        index := index + 1;
      }
    }

    /** The state of the copy loop after the positions below `index` are done. */
    ghost predicate CopiedUpTo(index: nat, source: ArrayNode, original: seq<Child>, sourceChildren: seq<Child>,
                               mine: seq<Value>, theirs: seq<Value>)
      reads *
    {
      && Exclusive(original) && Apart(original, sourceChildren)
      && |mine| == |original| && |theirs| == |sourceChildren|
      && index <= Max(|mine|, |theirs|)
      && |children| == (if index < |original| then |original| else index)
      && (source == this ==> children == original && sourceChildren == original)
      && (source != this ==> source.children == sourceChildren)
      && (forall k :: index <= k < |original| ==> children[k] == original[k] && ValueOf(original[k]) == mine[k])
      && (forall k :: index <= k < |sourceChildren| ==> ValueOf(sourceChildren[k]) == theirs[k])
      && (forall k :: 0 <= k < index ==> ValueOf(children[k]) == CopiedItems(mine, theirs)[k])
      && (forall k :: 0 <= k < index && Reuses(mine, theirs, k) ==> children[k] == original[k])
      && (forall k :: 0 <= k < index && !Reuses(mine, theirs, k) && children[k].Node? ==> children[k].node !in AllObjects(original))
    }

    /**
     * One step of the copy loop: reuse the node at `index`, updated in place, when
     * it has the incoming child's kind, else set the slot to a clone of it.
     */
    method CopySlot(index: nat, source: ArrayNode, ghost original: seq<Child>, ghost sourceChildren: seq<Child>,
                    ghost mine: seq<Value>, ghost theirs: seq<Value>)
      requires index < Max(|original|, |sourceChildren|)
      requires CopiedUpTo(index, source, original, sourceChildren, mine, theirs)
      modifies this, if index < |original| then Objects(original[index]) else {}
      ensures CopiedUpTo(index + 1, source, original, sourceChildren, mine, theirs)
      ensures forall k :: 0 <= k < index ==> children[k] == old(children[k])
      ensures !Reuses(mine, theirs, index) ==>
        if SelfCloning(Incoming(sourceChildren, index), IncomingValue(theirs, index))
        then children[index] == Incoming(sourceChildren, index)
        else children[index].Node? && fresh(children[index].node)
    {
      var incoming := if index < |source.children| then source.children[index] else MissingInstance;
      assert incoming == Incoming(sourceChildren, index);
      if index < |children| && IsCopyable(children[index], incoming) {
        ReuseSlot(index, source, original, sourceChildren, mine, theirs);
      } else {
        var copy := CloneChild(incoming);
        ReplaceSlot(index, copy, source, original, sourceChildren, mine, theirs);
      }
    }

    /** The reusing step: the node at `index` takes over the incoming child's value. */
    method ReuseSlot(index: nat, source: ArrayNode, ghost original: seq<Child>, ghost sourceChildren: seq<Child>,
                     ghost mine: seq<Value>, ghost theirs: seq<Value>)
      requires index < |original|
      requires CopiedUpTo(index, source, original, sourceChildren, mine, theirs)
      requires IsCopyable(children[index], Incoming(sourceChildren, index))
      modifies Objects(original[index])
      ensures CopiedUpTo(index + 1, source, original, sourceChildren, mine, theirs)
      ensures children == old(children)
    {
      var incoming := if index < |source.children| then source.children[index] else MissingInstance;
      assert incoming == Incoming(sourceChildren, index);
      CopyInto(children[index], incoming);
    }

    /** The replacing step: the slot at `index` is set to, or extended by, `copy`. */
    method ReplaceSlot(index: nat, copy: Child, source: ArrayNode, ghost original: seq<Child>, ghost sourceChildren: seq<Child>,
                       ghost mine: seq<Value>, ghost theirs: seq<Value>)
      requires index < Max(|original|, |sourceChildren|)
      requires CopiedUpTo(index, source, original, sourceChildren, mine, theirs)
      requires index < |original| ==> !IsCopyable(original[index], Incoming(sourceChildren, index))
      requires ValueOf(copy) == IncomingValue(theirs, index)
      requires SelfCloning(Incoming(sourceChildren, index), IncomingValue(theirs, index)) ==> copy == Incoming(sourceChildren, index)
      requires !SelfCloning(Incoming(sourceChildren, index), IncomingValue(theirs, index)) ==>
        copy.Node? && copy.node !in AllObjects(original)
      modifies this
      ensures CopiedUpTo(index + 1, source, original, sourceChildren, mine, theirs)
      ensures forall k :: 0 <= k < index ==> children[k] == old(children[k])
      ensures children[index] == copy
    {
      assert index < |original| ==> original[index] != Incoming(sourceChildren, index);
      if index < |children| {
        children := children[index := copy];
      } else {
        children := children + [copy];
      }
    }

    /**
     * `readResolve`: read the count n, decode child i with the existing child i
     * as the reuse target, then remove from position `size()` down to n.
     * On a stream that ends early the children decoded so far stay in place.
     * For the count Integer.MIN_VALUE no child is decoded and the removal loop
     * empties the list and then never ends, since `i >= len` holds for every
     * int: `hangs` reports that the call does not return.
     */
    method ReadResolve(input: seq<Token>) returns (ok: bool, rest: seq<Token>, hangs: bool)
      requires Exclusive(children)
      modifies this, AllObjects(children)
      ensures hangs <==> input != [] && input[0] == IntTok(-0x8000_0000)
      ensures hangs ==> !ok && children == []
      ensures ok <==> Decode(input).Some?
      ensures ok ==> (Items(), rest) == Decode(input).value
      ensures ok ==> forall i :: 0 <= i < |children| && i < |old(children)| && KindOf(old(Items())[i]) == KindOf(Items()[i]) ==>
        children[i] == old(children)[i]
      ensures ok ==> forall i :: 0 <= i < |children| && !(i < |old(children)| && KindOf(old(Items())[i]) == KindOf(Items()[i])) ==>
        children[i].Node? ==> fresh(children[i].node)
    {
      if input == [] || !input[0].IntTok? {
        return false, input, false;
      }
      var len := input[0].i;
      if len == -0x8000_0000 {
        RemoveFrom(0);
        return false, input[1..], true;
      }
      hangs := false;
      ghost var decoded;
      ok, rest, decoded := ResolveChildren(input[1..], len, children, Items());
      if !ok {
        return;
      }
      ghost var full := children;
      RemoveFrom(len);
      assert children == full[..|decoded|];
      assert forall k :: 0 <= k < |children| ==> ValueOf(children[k]) == decoded[k];
      assert Items() == decoded;
    }

    /** The decode loop of `readResolve`: child i is read with the existing child i as the reuse target. */
    method ResolveChildren(input: seq<Token>, len: int, ghost original: seq<Child>, ghost mine: seq<Value>)
      returns (ok: bool, rest: seq<Token>, ghost decoded: seq<Value>)
      requires original == children && mine == Items() && Exclusive(children)
      modifies this, AllObjects(children)
      ensures ok <==> DecodeNodes(input, if len < 0 then 0 else len).Some?
      ensures ok ==> DecodeNodes(input, if len < 0 then 0 else len) == Some((decoded, rest))
      ensures ok ==> |decoded| == if len < 0 then 0 else len
      ensures ok ==> ResolvedUpTo(|decoded|, original, mine, decoded)
      ensures ok ==> forall k :: 0 <= k < |decoded| && !(k < |original| && KindOf(mine[k]) == KindOf(decoded[k])) ==>
        children[k].Node? ==> fresh(children[k].node)
    {
      var n: nat := if len < 0 then 0 else len;
      rest := input;
      decoded := [];
      PrependEmpty(DecodeNodes(input, n));
      var i := 0;
      while i < len
        invariant 0 <= i <= n
        invariant DecodeNodes(input, n) == Prepend(decoded, DecodeNodes(rest, n - i))
        invariant ResolvedUpTo(i, original, mine, decoded)
        invariant forall k :: 0 <= k < i && !(k < |original| && KindOf(mine[k]) == KindOf(decoded[k])) ==>
          children[k].Node? ==> fresh(children[k].node)
      {
        if rest == [] || !rest[0].NodeTok? {
          return false, rest, decoded;
        }
        var v := rest[0].v;
        PrependAssoc(decoded, v, DecodeNodes(rest[1..], n - i - 1));
        rest := rest[1..];
        ResolveSlot(i, v, original, mine, decoded);
        decoded := decoded + [v];
        i := i + 1;
      }
      assert i == n && decoded + [] == decoded;
      return true, rest, decoded;
    }

    /** The state of the decode loop of `readResolve` after the positions below `i` are read. */
    ghost predicate ResolvedUpTo(i: nat, original: seq<Child>, mine: seq<Value>, decoded: seq<Value>)
      reads *
    {
      && Exclusive(original) && |mine| == |original| && |decoded| == i
      && |children| == Max(i, |original|)
      && (forall k :: i <= k < |original| ==> children[k] == original[k])
      && (forall k :: i <= k < |original| ==> ValueOf(original[k]) == mine[k])
      && (forall k :: 0 <= k < i ==> ValueOf(children[k]) == decoded[k])
      && (forall k :: 0 <= k < i && k < |original| && KindOf(mine[k]) == KindOf(decoded[k]) ==> children[k] == original[k])
      && (forall k :: 0 <= k < i && !(k < |original| && KindOf(mine[k]) == KindOf(decoded[k])) && children[k].Node? ==>
            children[k].node !in AllObjects(original))
    }

    /** One step of the decode loop: `set(i, deserializeNode(in, get(i)))`. */
    method ResolveSlot(i: nat, v: Value, ghost original: seq<Child>, ghost mine: seq<Value>, ghost decoded: seq<Value>)
      requires ResolvedUpTo(i, original, mine, decoded)
      modifies this, if i < |original| then Objects(original[i]) else {}
      ensures ResolvedUpTo(i + 1, original, mine, decoded + [v])
      ensures forall k :: 0 <= k < i ==> children[k] == old(children[k])
      ensures !(i < |original| && KindOf(mine[i]) == KindOf(v)) && children[i].Node? ==> fresh(children[i].node)
    {
      var target := if i < |children| then children[i] else MissingInstance;
      ghost var updated := if i < |original| && KindOf(mine[i]) == KindOf(v) then mine[i := v] else mine;
      var node := Deserialize(v, target);
      PlaceResolved(i, v, node, original, mine, updated, decoded);
    }

    /** The `set(i, …)` half of a decode step, after the target may have taken over the value `v`. */
    method PlaceResolved(i: nat, v: Value, node: Child, ghost original: seq<Child>, ghost mine: seq<Value>,
                         ghost updated: seq<Value>, ghost decoded: seq<Value>)
      requires ResolvedUpTo(i, original, updated, decoded)
      requires |mine| == |updated| && forall k :: 0 <= k < |mine| && k != i ==> mine[k] == updated[k]
      requires i < |mine| ==> KindOf(mine[i]) == KindOf(updated[i])
      requires ValueOf(node) == v
      requires i < |original| && KindOf(mine[i]) == KindOf(v) ==> node == original[i]
      requires !(i < |original| && KindOf(mine[i]) == KindOf(v)) && node.Node? ==> node.node !in AllObjects(original)
      modifies this
      ensures ResolvedUpTo(i + 1, original, mine, decoded + [v])
      ensures forall k :: 0 <= k < i ==> children[k] == old(children[k])
      ensures children[i] == node
    {
      if i < |children| {
        children := children[i := node];
      } else {
        children := children + [node];
      }
    }

    /** The removal loop of `readResolve`: `remove(i)` for i from `size()` down to `len`; out-of-range removals do nothing. */
    method RemoveFrom(len: Int32)
      requires len != -0x8000_0000
      modifies this
      ensures children == old(children)[..if len < 0 then 0 else if len > |old(children)| then |old(children)| else len]
    {
      var k := |children|;
      while k >= len
        invariant len - 1 <= k <= |old(children)| || k == |old(children)| < len - 1
        invariant children == old(children)[..if k + 1 < 0 then 0 else if k + 1 > |old(children)| then |old(children)| else k + 1]
        decreases k - len
      {
        if 0 <= k < |children| {
          children := children[..k] + children[k + 1..];
        }
        k := k - 1;
      }
    }

    /** `write`: the child count, then each child in iteration order. */
    function Write(): (r: seq<Token>)
      requires |children| < 0x8000_0000
      reads this, AllObjects(children)
      ensures r == Encode(Items())
      ensures Decode(r) == Some((Items(), []))
    {
      RoundTrip(Items(), []);
      assert Encode(Items()) + [] == Encode(Items());
      Encode(Items())
    }

    /** `addAll`: each node is appended in order, by reference. */
    method AddAll(nodes: seq<Child>)
      modifies this
      ensures children == old(children) + nodes
    {
      var i := 0;
      while i < |nodes|
        invariant 0 <= i <= |nodes|
        invariant children == old(children) + nodes[..i]
      {
        children := children + [nodes[i]];
        i := i + 1;
      }
    }

    /** `contains`: the given node equals some child, asked in iteration order. */
    function Contains(node: Child): (r: bool)
      reads this, AllObjects(children), Objects(node)
      ensures r <==> exists i :: 0 <= i < |children| && ChildEquals(node, children[i])
    {
      ContainsFrom(children, node, 0)
    }

    /** `getType`. */
    function GetType(): (r: Kind)
      ensures r == ArrayKind
    {
      ArrayKind
    }

    /** `compareToSameType`: the lexicographic comparison of the children. */
    function CompareToSameType(other: ArrayNode): (r: int)
      reads this, AllObjects(children), other, AllObjects(other.children)
      ensures -1 <= r <= 1
      ensures r == 0 <==> Items() == other.Items()
    {
      LexCompareRange(Items(), other.Items());
      LexCompareZeroIffEqual(Items(), other.Items());
      LexCompare(Items(), other.Items())
    }

    /**
     * `equals`: the same object, or an array whose children, walked in step, each
     * equal the other's child at that position; false for null and non-arrays.
     */
    function Equals(obj: Ref): (r: bool)
      reads this, AllObjects(children)
      reads if obj.ArrayRef? then {obj.arr} else {}
      reads if obj.ArrayRef? then AllObjects(obj.arr.children) else {}
      ensures r <==> (obj == ArrayRef(this) ||
        (obj.ArrayRef? && |children| == |obj.arr.children| &&
         forall i :: 0 <= i < |children| ==> ChildEquals(children[i], obj.arr.children[i])))
    {
      if obj.ArrayRef? && obj.arr == this then true
      else if obj.NullRef? then false
      else if !obj.ArrayRef? then false
      else PairwiseEqualFrom(children, obj.arr.children, 0)
    }

    /** `hashCode`: the accumulated hash is discarded and the prime 41 is returned. */
    function HashCode(): (h: int)
      ensures h == 41
    {
      41
    }

    /**
     * `appendAsString`: '[', then each child's rendering, preceded by ", " for all
     * but the first, then ']'.
     */
    method AppendAsString() returns (s: string)
      ensures s == Render(Array(Items()))
      ensures children == [] ==> s == "[]"
    {
      ghost var parts := RenderAll(Items());
      var body := "";
      var first := true;
      var i := 0;
      while i < |children|
        invariant 0 <= i <= |children|
        invariant first <==> i == 0
        invariant body == Join(parts[..i])
      {
        if first {
          first := false;
          assert parts[..1] == [parts[0]];
        } else {
          JoinPrefixStep(parts, i);
          body := body + ", ";
        }
        body := body + Render(ValueOf(children[i]));
        i := i + 1;
      }
      assert parts[..i] == parts;
      s := "[" + body + "]";
      assert body == Join(parts);
      assert parts == RenderAll(Items());
      RenderArray(Items());
      assert s == "[" + Join(RenderAll(Items())) + "]";
    }

    /** Kryo `copy`: a new array filled by `copyValueFrom` from this one. */
    method Copy() returns (r: ArrayNode)
      ensures fresh(r)
      ensures r.Items() == Items()
      ensures |r.children| == |children|
      ensures forall i :: 0 <= i < |r.children| ==>
        if SelfCloning(children[i], Items()[i]) then r.children[i] == children[i]
        else r.children[i].Node? && fresh(r.children[i].node)
    {
      r := new ArrayNode();
      var err := r.CopyValueFrom(ArrayRef(this));
    }
  }

  /** Swapping the operands of `compareToSameType` negates the result. */
  lemma CompareToSameTypeAntisymmetric(a: ArrayNode, b: ArrayNode)
    ensures a.CompareToSameType(b) == -b.CompareToSameType(a)
  {
    LexCompareAntisymmetric(a.Items(), b.Items());
  }

  /** Equal arrays hash equally. */
  lemma EqualArraysHashEqually(a: ArrayNode, b: ArrayNode)
    requires a.Equals(ArrayRef(b))
    ensures a.HashCode() == b.HashCode()
  {
  }

  /**
   * When every NullNode among the children is the shared instance, `equals`
   * between two arrays agrees with `compareToSameType` being 0.
   */
  lemma EqualsAgreesWithCompare(a: ArrayNode, b: ArrayNode)
    requires OnlySharedNull(a.children) && OnlySharedNull(b.children)
    ensures a.Equals(ArrayRef(b)) <==> a.CompareToSameType(b) == 0
  {
    if |a.children| == |b.children| {
      forall i | 0 <= i < |a.children|
        ensures ChildEquals(a.children[i], b.children[i]) <==> a.Items()[i] == b.Items()[i]
      {
        ChildEqualsIsValueEquality(a.children[i], b.children[i]);
      }
    }
  }

  /**
   * A NullNode made by the public constructor breaks that agreement: `[null]`
   * with the shared instance and `[null]` with a constructed one compare as 0,
   * yet the first does not equal the second while the second equals the first.
   */
  lemma StrayNullBreaksEquals(a: ArrayNode, b: ArrayNode)
    requires a.children == [NullInstance]
    requires |b.children| == 1 && b.children[0].Node? && b.children[0].node.value == Null
    ensures a.CompareToSameType(b) == 0
    ensures !a.Equals(ArrayRef(b)) && b.Equals(ArrayRef(a))
  {
    assert a.Items() == [Null] == b.Items();
  }

  /** With only the shared NullNode involved, `contains` is membership of the node's value among the children's values. */
  lemma ContainsIsValueMembership(a: ArrayNode, node: Child)
    requires OnlySharedNull(a.children) && (node.Node? ==> node.node.value != Null)
    ensures a.Contains(node) <==> ValueOf(node) in a.Items()
  {
    forall i | 0 <= i < |a.children|
      ensures ChildEquals(node, a.children[i]) <==> a.Items()[i] == ValueOf(node)
    {
      ChildEqualsIsValueEquality(node, a.children[i]);
    }
  }

  lemma RenderArray(items: seq<Value>)
    ensures Render(Array(items)) == "[" + Join(RenderAll(items)) + "]"
  {
  }
}

=== FILE: nodes.dfy ===
/**
 * The JSON-like record value model: the content of a node (`Value`), the kind
 * tag that decides whether one node may be reused for another (`Kind`), and
 * references to nodes as the containers hold them (`Child`), where the Null and
 * Missing singletons are shared instances and every other node is a mutable
 * object (`JsonNode`) whose content can be overwritten in place.
 *
 * Scalar nodes (text, numbers, booleans) are not part of this model; a
 * `Scalar` value stands for one by its type tag and its rendered text.
 */
module Nodes {
  import opened Wrappers

  /** The type tag of a node; fixed for the node's lifetime. */
  datatype Kind = NullKind | MissingKind | ArrayKind | ScalarKind(tag: nat)

  /** The content of a node. */
  datatype Value =
    | Null
    | Missing
    | Scalar(tag: nat, text: string)
    | Array(items: seq<Value>)

  function KindOf(v: Value): Kind
  {
    match v
    case Null => NullKind
    case Missing => MissingKind
    case Scalar(tag, _) => ScalarKind(tag)
    case Array(_) => ArrayKind
  }

  /** Absence markers: the two kinds whose nodes are process-wide singletons. */
  predicate IsAbsence(v: Value)
  {
    v.Null? || v.Missing?
  }

  /** The position of a kind in the order of node types; distinct kinds get distinct ranks. */
  function Rank(k: Kind): nat
  {
    match k
    case NullKind => 0
    case MissingKind => 1
    case ArrayKind => 2
    case ScalarKind(tag) => 3 + tag
  }

  function Sign(x: int): int
  {
    if x < 0 then -1 else if x > 0 then 1 else 0
  }

  /** Lexicographic order on the rendered text of two scalars. */
  function TextCompare(s: string, t: string): (r: int)
    ensures -1 <= r <= 1
    ensures r == 0 <==> s == t
  {
    if s == [] || t == [] then
      (if s != [] then 1 else if t != [] then -1 else 0)
    else if s[0] != t[0] then
      (if s[0] < t[0] then -1 else 1)
    else
      assert s == [s[0]] + s[1..] && t == [t[0]] + t[1..];
      TextCompare(s[1..], t[1..])
  }

  lemma TextCompareAntisymmetric(s: string, t: string)
    ensures TextCompare(t, s) == -TextCompare(s, t)
  {
  }

  /**
   * `compareTo` between two nodes: nodes of different kinds are ordered by kind,
   * nodes of the same kind by their own `compareToSameType`; for arrays that is
   * the lexicographic walk `LexCompare`.
   */
  function Compare(a: Value, b: Value): (r: int)
    decreases a
  {
    if KindOf(a) != KindOf(b) then Sign(Rank(KindOf(a)) - Rank(KindOf(b)))
    else match a
      case Null => 0
      case Missing => 0
      case Scalar(_, text) => TextCompare(text, b.text)
      case Array(items) => LexCompare(items, b.items)
  }

  /**
   * The array comparison: walk both child sequences in step and return the
   * first nonzero child comparison; when one side runs out first, the side
   * that still has children is the greater.
   */
  function LexCompare(xs: seq<Value>, ys: seq<Value>): (r: int)
    decreases xs
  {
    if xs == [] || ys == [] then
      (if xs != [] then 1 else if ys != [] then -1 else 0)
    else
      var c := Compare(xs[0], ys[0]);
      if c != 0 then c else LexCompare(xs[1..], ys[1..])
  }

  lemma {:induction false} CompareRange(a: Value, b: Value)
    ensures -1 <= Compare(a, b) <= 1
    decreases a
  {
    if KindOf(a) == KindOf(b) && a.Array? {
      LexCompareRange(a.items, b.items);
    }
  }

  lemma {:induction false} LexCompareRange(xs: seq<Value>, ys: seq<Value>)
    ensures -1 <= LexCompare(xs, ys) <= 1
    decreases xs
  {
    if xs != [] && ys != [] {
      CompareRange(xs[0], ys[0]);
      LexCompareRange(xs[1..], ys[1..]);
    }
  }

  /**
   * The lexicographic rule: past a common stretch of equal children, the result
   * is the first nonzero child comparison, or -1 when only the left side has run
   * out, 1 when only the right side has, and 0 when both run out together.
   */
  lemma {:induction false} LexCompareFirstDifference(xs: seq<Value>, ys: seq<Value>, k: nat)
    requires k <= |xs| && k <= |ys|
    requires forall j :: 0 <= j < k ==> Compare(xs[j], ys[j]) == 0
    ensures k < |xs| && k < |ys| && Compare(xs[k], ys[k]) != 0 ==> LexCompare(xs, ys) == Compare(xs[k], ys[k])
    ensures k == |xs| && k < |ys| ==> LexCompare(xs, ys) == -1
    ensures k < |xs| && k == |ys| ==> LexCompare(xs, ys) == 1
    ensures k == |xs| == |ys| ==> LexCompare(xs, ys) == 0
    decreases k
  {
    if k > 0 {
      assert Compare(xs[0], ys[0]) == 0;
      LexCompareFirstDifference(xs[1..], ys[1..], k - 1);
    }
  }

  /** Comparison is zero exactly for equal values: `compareTo == 0` agrees with `equals`. */
  lemma {:induction false} CompareZeroIffEqual(a: Value, b: Value)
    ensures Compare(a, b) == 0 <==> a == b
    decreases a
  {
    if KindOf(a) == KindOf(b) && a.Array? {
      LexCompareZeroIffEqual(a.items, b.items);
    }
  }

  lemma {:induction false} LexCompareZeroIffEqual(xs: seq<Value>, ys: seq<Value>)
    ensures LexCompare(xs, ys) == 0 <==> xs == ys
    decreases xs
  {
    if xs != [] && ys != [] {
      CompareZeroIffEqual(xs[0], ys[0]);
      LexCompareZeroIffEqual(xs[1..], ys[1..]);
      assert xs == [xs[0]] + xs[1..] && ys == [ys[0]] + ys[1..];
    }
  }

  /** Swapping the operands negates the comparison. */
  lemma {:induction false} CompareAntisymmetric(a: Value, b: Value)
    ensures Compare(b, a) == -Compare(a, b)
    decreases a
  {
    if KindOf(a) == KindOf(b) {
      match a
      case Array(items) => LexCompareAntisymmetric(items, b.items);
      case Scalar(_, text) => TextCompareAntisymmetric(text, b.text);
      case _ =>
    }
  }

  lemma {:induction false} LexCompareAntisymmetric(xs: seq<Value>, ys: seq<Value>)
    ensures LexCompare(ys, xs) == -LexCompare(xs, ys)
    decreases xs
  {
    if xs != [] && ys != [] {
      CompareAntisymmetric(xs[0], ys[0]);
      LexCompareAntisymmetric(xs[1..], ys[1..]);
    }
  }

  /**
   * The canonical text rendering (`appendAsString`): `null` for the Null node,
   * an array as its children's renderings separated by ", " inside brackets.
   * MissingNode is not part of this model; `<missing>` stands for its text.
   */
  function Render(v: Value): string
    decreases v
  {
    match v
    case Null => "null"
    case Missing => "<missing>"
    case Scalar(_, text) => text
    case Array(items) => "[" + Join(RenderAll(items)) + "]"
  }

  function RenderAll(vs: seq<Value>): (r: seq<string>)
    ensures |r| == |vs|
    ensures forall i :: 0 <= i < |vs| ==> r[i] == Render(vs[i])
    decreases vs
  {
    seq(|vs|, i requires 0 <= i < |vs| => Render(vs[i]))
  }

  /** The parts separated by ", ", as the `first` flag loops of the renderers produce them. */
  function Join(parts: seq<string>): string
  {
    if |parts| == 0 then ""
    else if |parts| == 1 then parts[0]
    else Join(parts[..|parts| - 1]) + ", " + parts[|parts| - 1]
  }

  /** Appending one more part extends the joined text by the separator and that part. */
  lemma JoinSnoc(parts: seq<string>, p: string)
    requires parts != []
    ensures Join(parts + [p]) == Join(parts) + ", " + p
  {
    assert (parts + [p])[..|parts|] == parts;
  }

  /** One more part of a prefix joins as the separator and that part after the shorter prefix. */
  lemma JoinPrefixStep(parts: seq<string>, i: nat)
    requires 1 <= i < |parts|
    ensures Join(parts[..i + 1]) == Join(parts[..i]) + ", " + parts[i]
  {
    JoinSnoc(parts[..i], parts[i]);
    assert parts[..i + 1] == parts[..i] + [parts[i]];
  }

  /**
   * The DataInput/DataOutput stream as the node codecs see it: ints, and whole
   * serialized child nodes (the per-type encoding of `SopremoUtil` is not part
   * of this model).
   */
  datatype Token = IntTok(i: Int32) | NodeTok(v: Value)

  /** A reference to a node as a container holds it. */
  datatype Child =
    | NullInstance              // NullNode.getInstance()
    | MissingInstance           // MissingNode.getInstance()
    | Node(node: JsonNode)      // any other node: a mutable object

  /** A node other than the two singletons; its content is overwritten by in-place reuse. */
  class JsonNode {
    var value: Value

    constructor (v: Value)
      ensures value == v
    {
      value := v;
    }
  }

  function Objects(c: Child): set<JsonNode>
  {
    if c.Node? then {c.node} else {}
  }

  /** The mutable node objects among a sequence of children. */
  function AllObjects(cs: seq<Child>): set<JsonNode>
  {
    set i | 0 <= i < |cs| && cs[i].Node? :: cs[i].node
  }

  function ValueOf(c: Child): Value
    reads Objects(c)
  {
    match c
    case NullInstance => Null
    case MissingInstance => Missing
    case Node(n) => n.value
  }

  function ValuesOf(cs: seq<Child>): (vs: seq<Value>)
    reads AllObjects(cs)
    ensures |vs| == |cs|
    ensures forall i :: 0 <= i < |cs| ==> vs[i] == ValueOf(cs[i])
  {
    seq(|cs|, i requires 0 <= i < |cs| reads AllObjects(cs) => ValueOf(cs[i]))
  }

  /**
   * `isCopyable`: an existing node may be reused for an incoming one when both
   * have the same kind. AbstractJsonNode is not part of this model; kind
   * equality stands for its test.
   */
  predicate IsCopyable(existing: Child, incoming: Child)
    reads Objects(existing), Objects(incoming)
  {
    KindOf(ValueOf(existing)) == KindOf(ValueOf(incoming))
  }

  /** What `array.get(i)` hands to a copy loop as a value: the child's, or Missing past the end. */
  function IncomingValue(vs: seq<Value>, i: nat): Value
  {
    if i < |vs| then vs[i] else Missing
  }

  /** Position i keeps its node: it exists and has the kind of the incoming value. */
  predicate Reuses(mine: seq<Value>, theirs: seq<Value>, i: nat)
  {
    i < |mine| && KindOf(mine[i]) == KindOf(IncomingValue(theirs, i))
  }

  /**
   * The value a node holds after `copyValueFrom`: an array copied into an array
   * takes `CopiedItems`, since the array's own `copyValueFrom` runs again; any
   * other node takes the incoming value.
   */
  function CopiedValue(mine: Value, theirs: Value): (r: Value)
    ensures KindOf(r) == KindOf(theirs)
    ensures !(mine.Array? && theirs.Array?) ==> r == theirs
    decreases mine
  {
    if mine.Array? && theirs.Array? then Array(CopiedItems(mine.items, theirs.items)) else theirs
  }

  /**
   * The children after an array's `copyValueFrom`: below the larger length, a
   * position that keeps its node holds the node's copied value, any other holds
   * the incoming value, which is Missing past the source's end. Nothing is removed.
   */
  function CopiedItems(mine: seq<Value>, theirs: seq<Value>): (r: seq<Value>)
    ensures |r| == Max(|mine|, |theirs|)
    ensures forall i :: 0 <= i < |r| ==>
      r[i] == if Reuses(mine, theirs, i) then CopiedValue(mine[i], IncomingValue(theirs, i)) else IncomingValue(theirs, i)
    ensures forall i :: |theirs| <= i < |r| ==> r[i] == Missing
    decreases mine
  {
    seq(Max(|mine|, |theirs|), i requires 0 <= i < Max(|mine|, |theirs|) =>
      if Reuses(mine, theirs, i) then CopiedValue(mine[i], IncomingValue(theirs, i)) else IncomingValue(theirs, i))
  }

  /** No array reused by a copy, at any depth, is longer than the array copied into it. */
  predicate Fits(mine: seq<Value>, theirs: seq<Value>)
    decreases mine
  {
    |mine| <= |theirs| &&
    forall i :: 0 <= i < |mine| && mine[i].Array? && theirs[i].Array? ==> Fits(mine[i].items, theirs[i].items)
  }

  /**
   * `existing.copyValueFrom(incoming)` on a child: the existing node keeps its
   * identity and takes the incoming content. On a singleton it only performs the
   * type check (NullNode.copyValueFrom), which leaves its content as it was.
   */
  method CopyInto(existing: Child, incoming: Child)
    requires IsCopyable(existing, incoming)
    modifies Objects(existing)
    ensures ValueOf(existing) == CopiedValue(old(ValueOf(existing)), old(ValueOf(incoming)))
  {
    if existing.Node? {
      existing.node.value := CopiedValue(existing.node.value, ValueOf(incoming));
    }
  }

  /**
   * Whether `clone()` on the child `c`, whose value is `v`, hands back `c` itself:
   * the singletons do, and so does any NullNode, since `NullNode.clone` returns the
   * receiver. Every other node clones to a fresh node.
   */
  predicate SelfCloning(c: Child, v: Value)
  {
    !c.Node? || v == Null
  }

  /** `clone()` on a child: the receiver itself for a NullNode or a singleton, otherwise a fresh node with the same content. */
  method CloneChild(c: Child) returns (d: Child)
    ensures ValueOf(d) == ValueOf(c)
    ensures SelfCloning(c, ValueOf(c)) ==> d == c
    ensures !SelfCloning(c, ValueOf(c)) ==> d.Node? && fresh(d.node)
  {
    if c.Node? && c.node.value != Null {
      var n := new JsonNode(c.node.value);
      d := Node(n);
    } else {
      d := c;
    }
  }

  /**
   * `a.equals(b)` on two children. A NullNode, the shared instance or one built by
   * the public constructor, equals only the shared instance (`o == Instance`); any
   * other node equals a node with the same value.
   */
  predicate ChildEquals(a: Child, b: Child)
    reads Objects(a), Objects(b)
  {
    if ValueOf(a) == Null then b == NullInstance else ValueOf(a) == ValueOf(b)
  }

  /** Every NullNode among the children is the shared instance: no mutable node holds `Null`. */
  predicate OnlySharedNull(cs: seq<Child>)
    reads AllObjects(cs)
  {
    forall i :: 0 <= i < |cs| && cs[i].Node? ==> cs[i].node.value != Null
  }

  /** Where no NullNode other than the shared one takes part, `equals` on children is equality of values. */
  lemma ChildEqualsIsValueEquality(a: Child, b: Child)
    requires a.Node? ==> a.node.value != Null
    requires b.Node? ==> b.node.value != Null
    ensures ChildEquals(a, b) <==> ValueOf(a) == ValueOf(b)
  {
  }
}

=== FILE: null_node.dfy ===
/**
 * The JSON null value: a singleton node with constant behaviour. Besides the
 * shared instance, the public no-argument constructor can make further NullNode
 * objects; they behave alike, and `equals` holds only for the shared instance,
 * so such a node is not even equal to itself.
 */
module NullNodes {
  import opened Wrappers
  import opened Nodes

  /**
   * A NullNode object: the shared instance, or one made by the public constructor.
   * Held by a container, the shared instance is the child `NullInstance` and a
   * constructed one is a `Node` child whose value is `Null`.
   */
  datatype NullNode = Instance | Constructed(serial: nat)

  /** What `equals` and `copyValueFrom` can be handed. */
  datatype Object = NullReference | NullNodeObject(n: NullNode) | OtherNode(kind: Kind)

  /** `getInstance`: always the shared instance. */
  function GetInstance(): (r: NullNode)
    ensures r == Instance
  {
    Instance
  }

  /** `canonicalize`: the shared instance, whichever NullNode is asked. */
  function Canonicalize(n: NullNode): (r: NullNode)
    ensures r == GetInstance()
  {
    Instance
  }

  /** `clone`: the receiver itself, no new node. */
  function Clone(n: NullNode): (r: NullNode)
    ensures r == n
  {
    n
  }

  /** `equals`: true exactly when the argument is the shared instance. */
  function Equals(n: NullNode, o: Object): (r: bool)
    ensures r <==> o == NullNodeObject(GetInstance())
  {
    match o
    case NullNodeObject(Instance) => true
    case _ => false
  }

  /** `hashCode`: the constant 37. */
  function HashCode(n: NullNode): (h: int)
    ensures h == 37
  {
    37
  }

  /** `compareToSameType`: every two null nodes are equal in order. */
  function CompareToSameType(n: NullNode, other: NullNode): (r: int)
    ensures r == 0
  {
    0
  }

  /** `isNull`. */
  function IsNull(n: NullNode): (r: bool)
    ensures r
  {
    true
  }

  /** `getType`: the kind of the null value. */
  function GetType(n: NullNode): (r: Kind)
    ensures r == NullKind
  {
    NullKind
  }

  /** `appendAsString`: the text appended to the output. */
  function AppendAsString(n: NullNode): (s: string)
    ensures s == "null"
    ensures s == Render(Null)
  {
    "null"
  }

  /** `write`: a null node writes nothing to the stream. */
  function Write(n: NullNode): (r: seq<Token>)
    ensures |r| == 0
  {
    []
  }

  /** `readResolve`: reads nothing and answers the shared instance; the input is left as it was. */
  function ReadResolve(n: NullNode, input: seq<Token>): (r: (NullNode, seq<Token>))
    ensures r.0 == GetInstance() && r.1 == input
  {
    (Instance, input)
  }

  /** `copyValueFrom`: only the type check, which fails for anything that is not a null node. */
  function CopyValueFrom(n: NullNode, other: Object): (r: Option<Error>)
    ensures r.None? <==> other.NullNodeObject?
    ensures other.NullReference? ==> r == Some(NullDereference)
    ensures other.OtherNode? ==> r == Some(TypeMismatch)
  {
    match other
    case NullReference => Some(NullDereference)
    case NullNodeObject(_) => None
    case OtherNode(_) => Some(TypeMismatch)
  }

  /** `clear`: there is nothing to clear; the node is unchanged. */
  function Clear(n: NullNode): (r: NullNode)
    ensures r == n
  {
    n
  }

  /** Reading what `write` wrote gives the shared instance and leaves the rest of the stream unread. */
  lemma RoundTrip(n: NullNode, m: NullNode, rest: seq<Token>)
    ensures ReadResolve(m, Write(n) + rest) == (Canonicalize(n), rest)
  {
    assert Write(n) + rest == rest;
  }

  /** `equals` agrees with `hashCode`: equal objects (only ever the instance) hash alike. */
  lemma EqualsConsistentWithHashCode(n: NullNode, m: NullNode)
    requires Equals(n, NullNodeObject(m))
    ensures m == Instance
    ensures HashCode(n) == HashCode(m)
  {
  }

  /**
   * `equals` is not reflexive on a null node made by the public constructor, and
   * not symmetric: such a node equals the instance, but the instance does not equal it.
   */
  lemma EqualsOnlyTheInstance(serial: nat)
    ensures !Equals(Constructed(serial), NullNodeObject(Constructed(serial)))
    ensures Equals(Constructed(serial), NullNodeObject(Instance))
    ensures !Equals(Instance, NullNodeObject(Constructed(serial)))
    ensures Equals(Instance, NullNodeObject(Clone(Instance)))
  {
  }

  /** A copy of the instance, and its canonical form, are still the one instance. */
  lemma CloneOfInstanceIsInstance(n: NullNode)
    ensures Clone(GetInstance()) == GetInstance()
    ensures Canonicalize(Clone(n)) == GetInstance()
    ensures Canonicalize(Canonicalize(n)) == Canonicalize(n)
    ensures Equals(n, NullNodeObject(Canonicalize(n)))
  {
  }
}

=== FILE: package_manager.dfy ===
/**
 * The package manager of the query language: it finds a package named `name` as
 * a classpath entry containing "sopremo-" + name, or else as a jar in one of its
 * jar path locations, and caches each package it has loaded under its name.
 */
module PackageManagers {
  import opened Wrappers

  /** Whether `needle` occurs in `s` starting at position `i`. */
  predicate OccursAt(s: string, needle: string, i: int)
  {
    0 <= i && i + |needle| <= |s| && s[i..i + |needle|] == needle
  }

  /** `String.indexOf(needle, from)`: the first occurrence at or after `from`, or -1. */
  function IndexFrom(s: string, needle: string, from: nat): (r: int)
    requires from <= |s| + 1
    ensures r == -1 || (from <= r && OccursAt(s, needle, r))
    ensures r == -1 ==> forall j :: from <= j ==> !OccursAt(s, needle, j)
    ensures r != -1 ==> forall j :: from <= j < r ==> !OccursAt(s, needle, j)
    decreases |s| + 1 - from
  {
    if from + |needle| > |s| then -1
    else if s[from..from + |needle|] == needle then from
    else IndexFrom(s, needle, from + 1)
  }

  /** `String.indexOf(needle)`: the first position where `needle` occurs, or -1. */
  function IndexOf(s: string, needle: string): (r: int)
    ensures r == -1 <==> forall j :: !OccursAt(s, needle, j)
    ensures r != -1 ==> OccursAt(s, needle, r) && forall j :: j < r ==> !OccursAt(s, needle, j)
  {
    IndexFrom(s, needle, 0)
  }

  /**
   * The test a classpath entry passes: the first occurrence of `needle` in it is at
   * the start or right after a file separator, and is followed by the end of the
   * entry, a file separator, '.' or '-'. Later occurrences are never looked at.
   */
  predicate Qualifies(path: string, needle: string, separator: char)
  {
    var i := IndexOf(path, needle);
    var next := i + |needle|;
    i != -1 &&
    (i == 0 || path[i - 1] == separator) &&
    (next == |path| || path[next] == separator || path[next] == '.' || path[next] == '-')
  }

  /** The fields of `s` between occurrences of `c`, empty fields included. */
  function Fields(s: string, c: char): (r: seq<string>)
    ensures |r| >= 1
    ensures forall i :: 0 <= i < |r| ==> c !in r[i]
    decreases |s|
  {
    if s == [] then [""]
    else
      var tail := Fields(s[1..], c);
      if s[0] == c then [""] + tail
      else [[s[0]] + tail[0]] + tail[1..]
  }

  /** The fields put back together with `c` between them. */
  function JoinWith(parts: seq<string>, c: char): string
    requires |parts| >= 1
    decreases |parts|
  {
    if |parts| == 1 then parts[0] else parts[0] + [c] + JoinWith(parts[1..], c)
  }

  /** Splitting into fields loses nothing: joining them again gives the string back. */
  lemma {:induction false} FieldsRoundTrip(s: string, c: char)
    ensures JoinWith(Fields(s, c), c) == s
    decreases |s|
  {
    if s != [] {
      var tail := Fields(s[1..], c);
      FieldsRoundTrip(s[1..], c);
      if s[0] != c && |tail| > 1 {
        assert Fields(s, c)[1..] == tail[1..];
        assert [s[0]] + tail[0] + [c] + JoinWith(tail[1..], c) == [s[0]] + JoinWith(tail, c);
      }
    }
  }

  /** The trailing empty strings removed, as `String.split` does. */
  function DropTrailingEmpty(parts: seq<string>): (r: seq<string>)
    ensures |r| <= |parts| && r == parts[..|r|]
    ensures r == [] || r[|r| - 1] != ""
    ensures forall i :: |r| <= i < |parts| ==> parts[i] == ""
    decreases |parts|
  {
    if parts != [] && parts[|parts| - 1] == "" then DropTrailingEmpty(parts[..|parts| - 1]) else parts
  }

  /** n empty fields. */
  function Blanks(n: nat): (r: seq<string>)
    ensures |r| == n && forall i :: 0 <= i < n ==> r[i] == ""
  {
    seq(n, _ => "")
  }

  /**
   * `String.split` on a single-character pattern: the whole string when the
   * character does not occur, otherwise the fields with trailing empty ones removed.
   * No entry holds the character and, when it occurs, the last entry is not empty.
   */
  function JavaSplit(s: string, c: char): (r: seq<string>)
    ensures c !in s ==> r == [s]
    ensures forall i :: 0 <= i < |r| ==> c !in r[i]
    ensures c in s ==> r == [] || r[|r| - 1] != ""
  {
    if c !in s then [s] else DropTrailingEmpty(Fields(s, c))
  }

  /**
   * `split` loses only empty fields: the entries joined with the character,
   * followed by the dropped empty fields, give the string back.
   */
  lemma SplitRoundTrip(s: string, c: char)
    requires c in s
    ensures |JavaSplit(s, c)| <= |Fields(s, c)|
    ensures JoinWith(JavaSplit(s, c) + Blanks(|Fields(s, c)| - |JavaSplit(s, c)|), c) == s
  {
    var fields := Fields(s, c);
    var r := JavaSplit(s, c);
    assert r == DropTrailingEmpty(fields);
    var padded := r + Blanks(|fields| - |r|);
    assert padded == fields by {
      forall i | 0 <= i < |fields|
        ensures padded[i] == fields[i]
      {
        if i >= |r| {
          assert padded[i] == "";
        }
      }
    }
    FieldsRoundTrip(s, c);
  }

  /** The position of the first entry that qualifies, or the number of entries when none does. */
  function FirstQualifyingIndex(entries: seq<string>, needle: string, separator: char): (k: nat)
    ensures k <= |entries|
    ensures k < |entries| ==> Qualifies(entries[k], needle, separator)
    ensures forall j :: 0 <= j < k ==> !Qualifies(entries[j], needle, separator)
    decreases |entries|
  {
    if entries == [] then 0
    else if Qualifies(entries[0], needle, separator) then 0
    else 1 + FirstQualifyingIndex(entries[1..], needle, separator)
  }

  /** The first of the entries that qualifies, or None when none does. */
  function FirstQualifying(entries: seq<string>, needle: string, separator: char): (r: Option<string>)
    ensures r.None? <==> forall i :: 0 <= i < |entries| ==> !Qualifies(entries[i], needle, separator)
    ensures r.Some? ==> r.value in entries && Qualifies(r.value, needle, separator)
  {
    var k := FirstQualifyingIndex(entries, needle, separator);
    if k < |entries| then Some(entries[k]) else None
  }

  /** The entry at `n` is the first that qualifies when none before it does and it does, or `n` is the end. */
  lemma FirstQualifyingAt(entries: seq<string>, needle: string, separator: char, n: nat)
    requires n <= |entries|
    requires forall j :: 0 <= j < n ==> !Qualifies(entries[j], needle, separator)
    requires n < |entries| ==> Qualifies(entries[n], needle, separator)
    ensures FirstQualifying(entries, needle, separator) == if n < |entries| then Some(entries[n]) else None
  {
    var k := FirstQualifyingIndex(entries, needle, separator);
    assert k == n;
  }

  /**
   * `findPackageInClassPath`: the first entry of the classpath, split at the path
   * separator, that qualifies for "sopremo-" + the package name; None for null.
   */
  method FindPackageInClassPath(classpath: string, packageName: string, separator: char, pathSeparator: char)
    returns (r: Option<string>)
    ensures r == FirstQualifying(JavaSplit(classpath, pathSeparator), "sopremo-" + packageName, separator)
  {
    var sopremoPackage := "sopremo-" + packageName;
    var entries := JavaSplit(classpath, pathSeparator);
    var n := 0;
    while n < |entries|
      invariant 0 <= n <= |entries|
      invariant forall j :: 0 <= j < n ==> !Qualifies(entries[j], sopremoPackage, separator)
    {
      var path := entries[n];
      var pathIndex := IndexOf(path, sopremoPackage);
      var nextIndex := pathIndex + |sopremoPackage|;
      var qualifies := pathIndex != -1 &&
        (pathIndex == 0 || path[pathIndex - 1] == separator) &&
        (nextIndex == |path| || path[nextIndex] == separator || path[nextIndex] == '.' || path[nextIndex] == '-');
      assert qualifies == Qualifies(path, sopremoPackage, separator);
      if qualifies {
        FirstQualifyingAt(entries, sopremoPackage, separator, n);
        return Some(path);
      }
      n := n + 1;
    }
    FirstQualifyingAt(entries, sopremoPackage, separator, n);
    return None;
  }

  /** An empty entry never qualifies, so the empty fields `split` drops could not have been found. */
  lemma SplitDropsNothingFindable(classpath: string, packageName: string, separator: char, pathSeparator: char)
    ensures FirstQualifying(JavaSplit(classpath, pathSeparator), "sopremo-" + packageName, separator) ==
      FirstQualifying(Fields(classpath, pathSeparator), "sopremo-" + packageName, separator)
  {
    var needle := "sopremo-" + packageName;
    var fields := Fields(classpath, pathSeparator);
    if pathSeparator in classpath {
      DropKeepsFirstQualifying(fields, needle, separator);
    } else {
      FieldsWithoutSeparator(classpath, pathSeparator);
    }
  }

  lemma {:induction false} FieldsWithoutSeparator(s: string, c: char)
    requires c !in s
    ensures Fields(s, c) == [s]
    decreases |s|
  {
    if s != [] {
      FieldsWithoutSeparator(s[1..], c);
      assert [s[0]] + s[1..] == s;
    }
  }

  lemma DropKeepsFirstQualifying(parts: seq<string>, needle: string, separator: char)
    requires needle != ""
    ensures FirstQualifying(DropTrailingEmpty(parts), needle, separator) == FirstQualifying(parts, needle, separator)
  {
    var kept := DropTrailingEmpty(parts);
    assert !Qualifies("", needle, separator) by {
      assert !OccursAt("", needle, IndexOf("", needle));
    }
    var k := FirstQualifyingIndex(parts, needle, separator);
    var m := FirstQualifyingIndex(kept, needle, separator);
    if m < |kept| {
      assert kept[m] == parts[m];
      assert k == m;
    } else {
      assert forall j :: 0 <= j < |parts| ==> !Qualifies(parts[j], needle, separator) by {
        forall j | 0 <= j < |parts| ensures !Qualifies(parts[j], needle, separator) {
          if j < |kept| {
            assert parts[j] == kept[j];
          }
        }
      }
    }
  }

  /**
   * Only the first occurrence counts: in "asopremo-x/sopremo-x" the first occurrence
   * of "sopremo-x" follows an 'a', so the entry is passed over although its second
   * occurrence, after a separator and at the end, would qualify.
   */
  lemma OnlyFirstOccurrenceCounts()
    ensures IndexOf("asopremo-x/sopremo-x", "sopremo-x") == 1
    ensures OccursAt("asopremo-x/sopremo-x", "sopremo-x", 11)
    ensures !Qualifies("asopremo-x/sopremo-x", "sopremo-x", '/')
  {
    var path, needle := "asopremo-x/sopremo-x", "sopremo-x";
    assert path[0..9][0] != needle[0];
    assert path[1..10] == needle;
    assert IndexFrom(path, needle, 1) == 1;
    assert IndexFrom(path, needle, 0) == 1;
    assert path[11..20] == needle;
  }

  /** The class loader a package is loaded through. */
  datatype Loader = SystemLoader | JarLoader(jar: string)

  /** A loaded package: its name, where it was found, and how its classes are loaded. */
  datatype PackageInfo = PackageInfo(name: string, location: string, loader: Loader)

  class PackageManager {
    var packages: map<string, PackageInfo>
    var jarPathLocations: seq<string>

    /** A new manager: nothing loaded, and the current directory as the only jar path location. */
    constructor ()
      ensures packages == map[] && jarPathLocations == ["."]
    {
      packages := map[];
      jarPathLocations := ["."];
    }

    /** `addJarPathLocation`: null is refused; any other location is appended. */
    method AddJarPathLocation(location: Option<string>) returns (err: Option<Error>)
      modifies this
      ensures location.None? ==>
        err == Some(NullPointer("jarPathLocation must not be null")) && jarPathLocations == old(jarPathLocations)
      ensures location.Some? ==> err.None? && jarPathLocations == old(jarPathLocations) + [location.value]
      ensures packages == old(packages)
    {
      if location.None? {
        return Some(NullPointer("jarPathLocation must not be null"));
      }
      jarPathLocations := jarPathLocations + [location.value];
      err := None;
    }

    /**
     * `getPackageInfo`: the cached package when there is one, with no lookup;
     * otherwise the package from the classpath, or else from the jar path locations,
     * imported and cached under its name. `findInJars` stands for the directory scan
     * and `imports` for whether importing from a location succeeds.
     */
    method GetPackageInfo(packageName: string, classpath: string, separator: char, pathSeparator: char,
                          findInJars: (seq<string>, string) -> Option<string>, imports: string -> bool)
      returns (r: Result<PackageInfo>)
      modifies this
      ensures jarPathLocations == old(jarPathLocations)
      ensures packageName in old(packages) ==> r == Ok(old(packages)[packageName]) && packages == old(packages)
      ensures packageName !in old(packages) ==>
        var inClassPath := FirstQualifying(JavaSplit(classpath, pathSeparator), "sopremo-" + packageName, separator);
        var inJars := findInJars(jarPathLocations, packageName);
        var location := if inClassPath.Some? then inClassPath else inJars;
        if location.None? then
          r == Failure(IllegalArgument("no package " + packageName + " found")) && packages == old(packages)
        else if !imports(location.value) then
          r == Failure(IllegalArgument("could not load package " + location.value)) && packages == old(packages)
        else
          r.Ok? && r.value.name == packageName && r.value.location == location.value &&
          r.value.loader == (if inClassPath.Some? then SystemLoader else JarLoader(location.value)) &&
          packages == old(packages)[packageName := r.value]
    {
      if packageName in packages {
        return Ok(packages[packageName]);
      }
      var packagePath := FindPackageInClassPath(classpath, packageName, separator, pathSeparator);
      var info;
      if packagePath.Some? {
        info := PackageInfo(packageName, packagePath.value, SystemLoader);
      } else {
        packagePath := findInJars(jarPathLocations, packageName);
        if packagePath.None? {
          return Failure(IllegalArgument("no package " + packageName + " found"));
        }
        info := PackageInfo(packageName, packagePath.value, JarLoader(packagePath.value));
      }
      if !imports(packagePath.value) {
        return Failure(IllegalArgument("could not load package " + packagePath.value));
      }
      packages := packages[packageName := info];
      r := Ok(info);
    }
  }

  /** Asking twice for a package gives the same package; the second time is served from the cache. */
  method GetPackageInfoTwice(manager: PackageManager, packageName: string, classpath: string, separator: char,
                             pathSeparator: char, findInJars: (seq<string>, string) -> Option<string>,
                             imports: string -> bool)
    returns (first: Result<PackageInfo>, second: Result<PackageInfo>)
    modifies manager
    ensures first.Ok? ==> second == first && packageName in manager.packages
  {
    first := manager.GetPackageInfo(packageName, classpath, separator, pathSeparator, findInJars, imports);
    second := manager.GetPackageInfo(packageName, classpath, separator, pathSeparator, findInJars, imports);
  }
}

=== FILE: remote_receiver.dfy ===
/**
 * The identity of a connection to a remote task manager: a socket address and a
 * connection index, with a byte codec in which every int is written as four
 * big-endian bytes.
 */
module RemoteReceivers {
  import opened Wrappers

  type Byte = b: int | 0 <= b < 0x100

  /** `writeInt`: four bytes, most significant first, of the two's-complement form. */
  function IntBytes(x: Int32): (r: seq<Byte>)
    ensures |r| == 4
  {
    var u: int := if x < 0 then x + 0x1_0000_0000 else x;
    [u / 0x100_0000, u / 0x1_0000 % 0x100, u / 0x100 % 0x100, u % 0x100]
  }

  /** `readInt`: the int whose four bytes start the input. */
  function IntAt(bs: seq<Byte>): Int32
    requires |bs| >= 4
  {
    var u: int := (bs[0] as int) * 0x100_0000 + (bs[1] as int) * 0x1_0000 + (bs[2] as int) * 0x100 + bs[3] as int;
    if u < 0x8000_0000 then u else u - 0x1_0000_0000
  }

  /** Reading an int back gives the int written, whatever follows it. */
  lemma IntRoundTrip(x: Int32, rest: seq<Byte>)
    ensures IntAt(IntBytes(x) + rest) == x
  {
    var u: int := if x < 0 then x + 0x1_0000_0000 else x;
    var hi := u / 0x1_0000;
    var lo := u % 0x1_0000;
    assert u == hi * 0x1_0000 + lo;
    assert hi == (u / 0x100_0000) * 0x100 + u / 0x1_0000 % 0x100;
    assert lo == (u / 0x100 % 0x100) * 0x100 + u % 0x100;
  }

  /** Whether sixteen address bytes form an IPv4-mapped IPv6 address, ::ffff:a.b.c.d. */
  predicate IsIPv4Mapped(ip: seq<Byte>)
  {
    |ip| == 16 && (forall i :: 0 <= i < 10 ==> ip[i] == 0) && ip[10] == 0xff && ip[11] == 0xff
  }

  /** The raw bytes an `InetAddress` holds: four, or sixteen that are not IPv4-mapped. */
  predicate CanonicalIp(ip: seq<Byte>)
  {
    |ip| == 4 || (|ip| == 16 && !IsIPv4Mapped(ip))
  }

  datatype SocketAddress = SocketAddress(ip: seq<Byte>, port: int)

  /** An `InetSocketAddress` over a resolved address. */
  type InetSocketAddress = a: SocketAddress | CanonicalIp(a.ip) && 0 <= a.port <= 0xFFFF
    witness SocketAddress([0, 0, 0, 0], 0)

  /**
   * `InetAddress.getByAddress`: four or sixteen bytes make an address, and an
   * IPv4-mapped IPv6 address becomes the IPv4 address it maps; any other length
   * is an unknown host.
   */
  function GetByAddress(raw: seq<Byte>): (r: Result<seq<Byte>>)
    ensures r.Ok? <==> |raw| == 4 || |raw| == 16
    ensures r.Ok? ==> CanonicalIp(r.value)
    ensures CanonicalIp(raw) ==> r == Ok(raw)
    ensures IsIPv4Mapped(raw) ==> r == Ok(raw[12..])
    ensures r.Failure? ==> r.error == UnknownHost
  {
    if |raw| == 4 then Ok(raw)
    else if |raw| == 16 then (if IsIPv4Mapped(raw) then Ok(raw[12..]) else Ok(raw))
    else Failure(UnknownHost)
  }

  /** `new InetSocketAddress(address, port)`: the port must lie in 0..65535. */
  function NewSocketAddress(ip: seq<Byte>, port: int): (r: Result<InetSocketAddress>)
    requires CanonicalIp(ip)
    ensures r.Ok? <==> 0 <= port <= 0xFFFF
    ensures r.Ok? ==> r.value.ip == ip && r.value.port == port
    ensures r.Failure? ==> r.error.IllegalArgument?
  {
    if 0 <= port <= 0xFFFF then Ok(SocketAddress(ip, port)) else Failure(IllegalArgument("port out of range:" + IntToString(port)))
  }

  /**
   * Kryo's `read(byte[])` into a new array of `len` bytes: the bytes available, up
   * to `len`; positions past the end of the stream keep their initial zero.
   */
  function ReadBytes(input: seq<Byte>, len: nat): (r: (seq<Byte>, seq<Byte>))
    ensures |r.0| == len
    ensures len <= |input| ==> r.0 + r.1 == input
    ensures len > |input| ==> r.0[..|input|] == input && r.1 == []
    ensures forall i :: |input| <= i < len ==> r.0[i] == 0
  {
    if len <= |input| then (input[..len], input[len..])
    else (input + seq(len - |input|, _ => 0), [])
  }

  /** What `write` emits: index, port, address length, then the address bytes. */
  function Encode(address: InetSocketAddress, index: Int32): (r: seq<Byte>)
    ensures |r| == 12 + |address.ip|
  {
    IntBytes(index) + IntBytes(address.port) + IntBytes(|address.ip|) + address.ip
  }

  /** A successful `read`: the address, the index, and the bytes after them. */
  datatype Decoded = Decoded(address: InetSocketAddress, index: Int32, rest: seq<Byte>)

  /**
   * What `read` makes of the input: the index, the port and the address length in
   * that order, then the address bytes; it fails when an int is cut short, when the
   * length is negative, when the bytes are no address, or when the port is out of range.
   */
  function Decode(input: seq<Byte>): Result<Decoded>
  {
    if |input| < 12 then Failure(Truncated)
    else
      var index, port, len := IntAt(input), IntAt(input[4..]), IntAt(input[8..]);
      if len < 0 then Failure(NegativeArraySize)
      else
        var (raw, rest) := ReadBytes(input[12..], len);
        match GetByAddress(raw)
        case Failure(e) => Failure(e)
        case Ok(ip) =>
          match NewSocketAddress(ip, port)
          case Failure(e) => Failure(e)
          case Ok(address) => Ok(Decoded(address, index, rest))
  }

  /** Reading what `write` wrote restores address and index and leaves the rest of the stream unread. */
  lemma RoundTrip(address: InetSocketAddress, index: Int32, rest: seq<Byte>)
    ensures Decode(Encode(address, index) + rest) == Ok(Decoded(address, index, rest))
  {
    var input := Encode(address, index) + rest;
    var ip := address.ip;
    assert input == IntBytes(index) + (IntBytes(address.port) + (IntBytes(|ip|) + (ip + rest)));
    IntRoundTrip(index, IntBytes(address.port) + (IntBytes(|ip|) + (ip + rest)));
    assert input[4..] == IntBytes(address.port) + (IntBytes(|ip|) + (ip + rest));
    IntRoundTrip(address.port, IntBytes(|ip|) + (ip + rest));
    assert input[8..] == IntBytes(|ip|) + (ip + rest);
    IntRoundTrip(|ip|, ip + rest);
    assert input[12..] == ip + rest;
    assert ReadBytes(input[12..], |ip|) == (ip, rest);
  }

  /** `read` does not repeat the constructor's check: a negative index on the stream is taken as it is. */
  lemma ReadTakesNegativeIndex(address: InetSocketAddress)
    ensures Decode(Encode(address, -1)) == Ok(Decoded(address, -1, []))
  {
    RoundTrip(address, -1, []);
    assert Encode(address, -1) + [] == Encode(address, -1);
  }

  /** An IPv4-mapped IPv6 address on the stream is read back as the IPv4 address it maps. */
  lemma MappedAddressReadsAsIPv4(ip: seq<Byte>, port: int, index: Int32)
    requires IsIPv4Mapped(ip) && 0 <= port <= 0xFFFF
    ensures Decode(IntBytes(index) + IntBytes(port) + IntBytes(16) + ip) ==
      Ok(Decoded(SocketAddress(ip[12..], port), index, []))
  {
    var tail := IntBytes(port) + (IntBytes(16) + ip);
    var input := IntBytes(index) + tail;
    assert IntBytes(index) + IntBytes(port) + IntBytes(16) + ip == input;
    IntRoundTrip(index, tail);
    assert input[4..] == tail;
    IntRoundTrip(port, IntBytes(16) + ip);
    assert input[8..] == IntBytes(16) + ip;
    IntRoundTrip(16, ip);
    assert input[12..] == ip;
    assert ip[..16] == ip && ip[16..] == [];
    assert ReadBytes(ip, 16) == (ip, []);
  }

  /** The decimal digits of a natural number, as `Integer.toString` writes them. */
  function NatToString(n: nat): (s: string)
    ensures |s| >= 1 && forall i :: 0 <= i < |s| ==> '0' <= s[i] <= '9'
    decreases n
  {
    if n < 10 then ["0123456789"[n]]
    else NatToString(n / 10) + ["0123456789"[n % 10]]
  }

  /** `Integer.toString`: a minus sign before the digits of a negative number. */
  function IntToString(i: int): (s: string)
    ensures |s| >= 1
  {
    if i < 0 then "-" + NatToString(-i) else NatToString(i)
  }

  predicate AllDigits(s: string)
  {
    forall i :: 0 <= i < |s| ==> '0' <= s[i] <= '9'
  }

  function ParseNat(s: string): nat
    requires |s| >= 1 && AllDigits(s)
    decreases |s|
  {
    if |s| == 1 then (s[0] as int - '0' as int)
    else ParseNat(s[..|s| - 1]) * 10 + (s[|s| - 1] as int - '0' as int)
  }

  function ParseInt(s: string): int
    requires |s| >= 1
    requires s[0] == '-' ==> |s| >= 2 && AllDigits(s[1..])
    requires s[0] != '-' ==> AllDigits(s)
  {
    if s[0] == '-' then 0 - (ParseNat(s[1..]) as int) else ParseNat(s)
  }

  lemma {:induction false} ParseNatToString(n: nat)
    ensures ParseNat(NatToString(n)) == n
    decreases n
  {
    if n >= 10 {
      var s := NatToString(n);
      assert s[..|s| - 1] == NatToString(n / 10);
      ParseNatToString(n / 10);
    }
  }

  /** The decimal text of an int reads back as that int. */
  lemma IntToStringRoundTrip(i: int)
    ensures IntToString(i)[0] != '-' <==> i >= 0
    ensures ParseInt(IntToString(i)) == i
  {
    var s := IntToString(i);
    if i < 0 {
      var digits := NatToString(-i);
      assert s == "-" + digits;
      assert s[1..] == digits && AllDigits(digits);
      ParseNatToString(-i);
      assert ParseInt(s) == 0 - ParseNat(digits);
    } else {
      assert s == NatToString(i) && AllDigits(s);
      ParseNatToString(i);
    }
  }

  /** What `equals` is handed: a remote receiver, or anything else including null. */
  datatype Object = ReceiverObject(receiver: RemoteReceiver) | OtherObject

  class RemoteReceiver {
    var address: InetSocketAddress
    var index: Int32

    /** The assignments of the public constructor, once its checks have passed. */
    constructor (address: InetSocketAddress, index: Int32)
      requires index >= 0
      ensures this.address == address && this.index == index
    {
      this.address := address;
      this.index := index;
    }

    /** The public constructor: a null address or a negative index is refused. */
    static method Create(address: Option<InetSocketAddress>, index: Int32) returns (r: Result<RemoteReceiver>)
      ensures address.None? ==> r == Failure(IllegalArgument("Argument connectionAddress must not be null"))
      ensures address.Some? && index < 0 ==>
        r == Failure(IllegalArgument("Argument connectionIndex must be a non-negative integer number"))
      ensures address.Some? && index >= 0 ==>
        r.Ok? && fresh(r.value) && r.value.address == address.value && r.value.index == index
    {
      if address.None? {
        return Failure(IllegalArgument("Argument connectionAddress must not be null"));
      }
      if index < 0 {
        return Failure(IllegalArgument("Argument connectionIndex must be a non-negative integer number"));
      }
      var receiver := new RemoteReceiver(address.value, index);
      r := Ok(receiver);
    }

    /** `hashCode`: the address hash plus 31 times the index, in 32-bit arithmetic. */
    function HashCode(addressHash: InetSocketAddress -> int): (h: Int32)
      reads this
      ensures h == Wrap32(addressHash(address) + 31 * index)
    {
      Wrap32(addressHash(address) + 31 * index)
    }

    /** `equals`: a remote receiver with an equal address and the same index. */
    function Equals(obj: Object): (r: bool)
      reads this, if obj.ReceiverObject? then {obj.receiver} else {}
      ensures r <==> obj.ReceiverObject? && address == obj.receiver.address && index == obj.receiver.index
    {
      if !obj.ReceiverObject? then false
      else if address != obj.receiver.address then false
      else if index != obj.receiver.index then false
      else true
    }

    /** `toString`: the address text, then the index in parentheses. */
    function ToString(show: InetSocketAddress -> string): (s: string)
      reads this
    {
      show(address) + " (" + IntToString(index) + ")"
    }

    /** `write`. */
    function Write(): (r: seq<Byte>)
      reads this
      ensures Decode(r) == Ok(Decoded(address, index, []))
    {
      RoundTrip(address, index, []);
      assert Encode(address, index) + [] == Encode(address, index);
      Encode(address, index)
    }

    /**
     * `read`: the index is overwritten as soon as it is read; the address only once
     * the port, the length and the address bytes are read and make a socket address.
     */
    method Read(input: seq<Byte>) returns (err: Option<Error>, rest: seq<Byte>)
      modifies this
      ensures |input| >= 4 ==> index == IntAt(input)
      ensures |input| < 4 ==> index == old(index)
      ensures err.None? <==> Decode(input).Ok?
      ensures err.None? ==> Decoded(address, index, rest) == Decode(input).value
      ensures err.Some? ==> address == old(address) && err.value == Decode(input).error
    {
      if |input| < 4 {
        return Some(Truncated), input;
      }
      index := IntAt(input);
      if |input| < 12 {
        return Some(Truncated), input;
      }
      var port := IntAt(input[4..]);
      var len := IntAt(input[8..]);
      if len < 0 {
        return Some(NegativeArraySize), input[12..];
      }
      var raw, remaining := ReadBytes(input[12..], len).0, ReadBytes(input[12..], len).1;
      var ip := GetByAddress(raw);
      if ip.Failure? {
        return Some(ip.error), remaining;
      }
      var socket := NewSocketAddress(ip.value, port);
      if socket.Failure? {
        return Some(socket.error), remaining;
      }
      address := socket.value;
      return None, remaining;
    }
  }

  /** `equals` is reflexive and symmetric. */
  lemma EqualsIsSymmetric(a: RemoteReceiver, b: RemoteReceiver)
    ensures a.Equals(ReceiverObject(a))
    ensures a.Equals(ReceiverObject(b)) <==> b.Equals(ReceiverObject(a))
  {
  }

  /** Equal receivers hash alike, whatever hash the addresses have. */
  lemma EqualReceiversHashAlike(a: RemoteReceiver, b: RemoteReceiver, addressHash: InetSocketAddress -> int)
    requires a.Equals(ReceiverObject(b))
    ensures a.HashCode(addressHash) == b.HashCode(addressHash)
  {
  }

  /** The index can be read back from the text of `toString`, between " (" and the closing ")". */
  lemma ToStringShowsIndex(r: RemoteReceiver, show: InetSocketAddress -> string)
    ensures var s, prefix := r.ToString(show), show(r.address) + " (";
      |prefix| < |s| && s[..|prefix|] == prefix && s[|s| - 1] == ')' &&
      ParseInt(s[|prefix|..|s| - 1]) == r.index
  {
    var s, prefix := r.ToString(show), show(r.address) + " (";
    var digits := IntToString(r.index);
    assert s == prefix + digits + ")";
    assert s[|prefix|..|s| - 1] == digits;
    IntToStringRoundTrip(r.index);
  }
}

=== FILE: stream_node.dfy ===
/**
 * A one-shot array whose elements come from a single producer (an iterator).
 * Handing out the producer, iterating and rendering all consume it; the node
 * cannot be copied, read or written.
 */
module StreamNodes {
  import opened Wrappers
  import opened Nodes

  /** A Java iterator over nodes: `rest` is what it will still produce, in order. */
  class NodeIterator {
    var rest: seq<Child>

    constructor (items: seq<Child>)
      ensures rest == items
    {
      rest := items;
    }

    /** `hasNext`: a probe that takes nothing. */
    function HasNext(): (r: bool)
      reads this
      ensures r <==> |rest| > 0
    {
      rest != []
    }

    /** `next`: hands out the first remaining element. */
    method Next() returns (c: Child)
      requires HasNext()
      modifies this
      ensures [c] + rest == old(rest)
    {
      c := rest[0];
      rest := rest[1..];
    }
  }

  /** The text `appendAsString` produces for a stream with these element values. */
  function PreviewText(vs: seq<Value>): (s: string)
  {
    var parts := RenderAll(vs);
    if |vs| <= 100 then "[" + Join(parts) + "]"
    else "[" + Join(parts[..100]) + ", ..." + "]"
  }

  /** A stream of at most 100 elements renders exactly as an array with those elements. */
  lemma ShortPreviewIsArrayText(vs: seq<Value>)
    requires |vs| <= 100
    ensures PreviewText(vs) == Render(Array(vs))
    ensures vs == [] ==> PreviewText(vs) == "[]"
  {
  }

  /** Past the first 100 elements only their presence matters: the text ends in ", ...]". */
  lemma LongPreviewIgnoresTail(vs: seq<Value>, ws: seq<Value>)
    requires |vs| > 100 && |ws| > 100 && vs[..100] == ws[..100]
    ensures PreviewText(vs) == PreviewText(ws)
    ensures PreviewText(vs)[|PreviewText(vs)| - 6..] == ", ...]"
  {
    assert RenderAll(vs)[..100] == RenderAll(vs[..100]);
    assert RenderAll(ws)[..100] == RenderAll(ws[..100]);
  }

  /** The message `write` refuses with. */
  const MaterializeHint: string := "Use CoreFunctions#ALL to transform this stream array into a materialized array"

  class StreamNode {
    var nodeIterator: NodeIterator

    /** `StreamNode(iterator)`: the stream takes over the given producer. */
    constructor (it: NodeIterator)
      ensures nodeIterator == it
    {
      nodeIterator := it;
    }

    /** `StreamNode()`: the stream over the shared empty producer. */
    constructor Empty(emptyIterator: NodeIterator)
      requires !emptyIterator.HasNext()
      ensures nodeIterator == emptyIterator && IsEmpty()
    {
      nodeIterator := emptyIterator;
    }

    /** The elements the stream still holds. */
    function Elements(): seq<Child>
      reads this, nodeIterator
    {
      nodeIterator.rest
    }

    /** `getType`: a stream is an array to its readers. */
    function GetType(): (r: Kind)
      ensures r == ArrayKind
    {
      ArrayKind
    }

    /** `setNodeIterator`: a null producer is refused and the old one stays. */
    method SetNodeIterator(it: NodeIterator?) returns (err: Option<Error>)
      modifies this
      ensures it == null <==> err.Some?
      ensures it == null ==> err == Some(NullPointer("nodeIterator must not be null")) && nodeIterator == old(nodeIterator)
      ensures it != null ==> nodeIterator == it
    {
      if it == null {
        return Some(NullPointer("nodeIterator must not be null"));
      }
      nodeIterator := it;
      err := None;
    }

    /** `clear`: the stream is put back on the shared empty producer. */
    method Clear(emptyIterator: NodeIterator)
      requires !emptyIterator.HasNext()
      modifies this
      ensures nodeIterator == emptyIterator && IsEmpty()
    {
      nodeIterator := emptyIterator;
    }

    /** `isEmpty`: whether the producer has no next element; nothing is taken from it. */
    function IsEmpty(): (r: bool)
      reads this, nodeIterator
      ensures r <==> Elements() == []
    {
      !nodeIterator.HasNext()
    }

    /** `iterator`: the stored producer itself, not a fresh one. */
    function Iterator(): (r: NodeIterator)
      reads this
      ensures r == nodeIterator
    {
      nodeIterator
    }

    /**
     * `appendAsString`: the text appended between and including the brackets. A
     * non-empty stream is drained into clones, the first 100 are rendered, ", ..."
     * marks a longer stream, and the stream is put on a new producer over the clones.
     */
    method AppendAsString() returns (out: string)
      modifies this, nodeIterator
      ensures out == PreviewText(old(ValuesOf(Elements())))
      ensures old(Elements()) == [] ==> nodeIterator == old(nodeIterator) && Elements() == []
      ensures old(Elements()) != [] ==> fresh(nodeIterator) && old(nodeIterator).rest == []
      ensures ValuesOf(Elements()) == old(ValuesOf(Elements()))
      ensures forall i :: 0 <= i < |Elements()| ==>
        if SelfCloning(old(Elements())[i], old(ValuesOf(Elements()))[i]) then Elements()[i] == old(Elements())[i]
        else Elements()[i].Node? && fresh(Elements()[i].node)
    {
      var producer := nodeIterator;
      ghost var values := ValuesOf(producer.rest);
      if producer.HasNext() {
        var elements := Drain(producer);
        assert ValuesOf(elements) == values;
        out := Preview(elements);
        assert ValuesOf(elements) == values;
        assert out == PreviewText(ValuesOf(elements));
        nodeIterator := new NodeIterator(elements);
      } else {
        out := "[" + "]";
        assert ValuesOf(Elements()) == [] && RenderAll([]) == [] && "[" + Join([]) == "[";
      }
    }

    /** `compareToSameType`: the difference of the two identity hashes, in 32-bit arithmetic. */
    function CompareToSameType(identityHash: int, otherIdentityHash: int): (r: int)
      ensures -0x8000_0000 <= r < 0x8000_0000
      ensures -0x8000_0000 <= identityHash - otherIdentityHash < 0x8000_0000 ==> r == identityHash - otherIdentityHash
    {
      Wrap32(identityHash - otherIdentityHash)
    }

    /** A stream compared with itself gives 0. */
    lemma CompareToSelf(identityHash: int)
      ensures CompareToSameType(identityHash, identityHash) == 0
    {
    }

    /** For non-negative identity hashes the difference does not wrap, so swapping the operands negates it. */
    lemma CompareAntisymmetric(identityHash: int, otherIdentityHash: int)
      requires 0 <= identityHash < 0x8000_0000 && 0 <= otherIdentityHash < 0x8000_0000
      ensures CompareToSameType(identityHash, otherIdentityHash) == -CompareToSameType(otherIdentityHash, identityHash)
      ensures CompareToSameType(identityHash, otherIdentityHash) < 0 <==> identityHash < otherIdentityHash
    {
    }

    /** `copyValueFrom`: always refused. */
    function CopyValueFrom(other: Child): (err: Error)
      ensures err == UnsupportedOperation(None)
    {
      UnsupportedOperation(None)
    }

    /** `readResolve`: always refused; nothing is read. */
    function ReadResolve(input: seq<Token>): (err: Error)
      ensures err == UnsupportedOperation(None)
    {
      UnsupportedOperation(None)
    }

    /** `write`: always refused, with a hint to materialize the stream first; nothing is written. */
    function Write(): (err: Error)
      ensures err == UnsupportedOperation(Some(MaterializeHint))
    {
      UnsupportedOperation(Some(MaterializeHint))
    }

    /** `hashCode`: the constant 42. */
    function HashCode(): (h: int)
      ensures h == 42
    {
      42
    }
  }

  /**
   * The drain loop of `appendAsString`: every remaining element is taken from the
   * producer and cloned; the clones have the values of the originals.
   */
  method Drain(producer: NodeIterator) returns (elements: seq<Child>)
    modifies producer
    ensures producer.rest == []
    ensures |elements| == |old(producer.rest)|
    ensures ValuesOf(elements) == old(ValuesOf(producer.rest))
    ensures forall i :: 0 <= i < |elements| ==>
      if SelfCloning(old(producer.rest)[i], old(ValuesOf(producer.rest))[i]) then elements[i] == old(producer.rest)[i]
      else elements[i].Node? && fresh(elements[i].node)
  {
    ghost var original := producer.rest;
    elements := [];
    while producer.HasNext()
      invariant |elements| + |producer.rest| == |original| && producer.rest == original[|elements|..]
      invariant forall i :: 0 <= i < |elements| ==> ValueOf(elements[i]) == ValueOf(original[i])
      invariant forall i :: 0 <= i < |elements| ==>
        if SelfCloning(original[i], ValueOf(original[i])) then elements[i] == original[i]
        else elements[i].Node? && fresh(elements[i].node)
      decreases |producer.rest|
    {
      var next := producer.Next();
      var copy := CloneChild(next);
      elements := elements + [copy];
    }
  }

  /**
   * The rendering part of `appendAsString` for drained elements: the first 100
   * rendered and separated by ", ", then ", ..." when there are more, in brackets.
   */
  method Preview(elements: seq<Child>) returns (out: string)
    requires elements != []
    ensures out == PreviewText(ValuesOf(elements))
  {
    var body := JoinFirstHundred(elements);
    if |elements| > 100 {
      out := "[" + body + ", ..." + "]";
    } else {
      assert RenderAll(ValuesOf(elements))[..|elements|] == RenderAll(ValuesOf(elements));
      out := "[" + body + "]";
    }
  }

  /** The element loop of `appendAsString`: the first element, then ", " and the next, below index 100. */
  method JoinFirstHundred(elements: seq<Child>) returns (body: string)
    requires elements != []
    ensures body == Join(RenderAll(ValuesOf(elements))[..Min(|elements|, 100)])
  {
    ghost var parts := RenderAll(ValuesOf(elements));
    body := Render(ValueOf(elements[0]));
    assert parts[..1] == [body];
    var index := 1;
    while index < |elements| && index < 100
      invariant 1 <= index <= |elements| && index <= 100
      invariant body == Join(parts[..index])
    {
      JoinPrefixStep(parts, index);
      assert parts[index] == Render(ValueOf(elements[index]));
      body := body + ", " + Render(ValueOf(elements[index]));
      index := index + 1;
    }
    assert index == Min(|elements|, 100);
    assert body == Join(parts[..Min(|elements|, 100)]);
    assert parts == RenderAll(ValuesOf(elements));
  }

  /** Iterating a stream to its end, as a for-each loop over `iterator()` does. */
  method IterateAll(s: StreamNode) returns (items: seq<Child>)
    modifies s.nodeIterator
    ensures items == old(s.Elements())
    ensures s.IsEmpty()
  {
    var it := s.Iterator();
    items := [];
    while it.HasNext()
      invariant items + it.rest == old(s.Elements())
      decreases |it.rest|
    {
      var next := it.Next();
      items := items + [next];
    }
  }

  /** A stream can be iterated once: a second iteration over `iterator()` yields nothing. */
  method IterateTwice(s: StreamNode) returns (first: seq<Child>, second: seq<Child>)
    modifies s.nodeIterator
    ensures first == old(s.Elements())
    ensures second == []
  {
    first := IterateAll(s);
    second := IterateAll(s);
  }
}

=== FILE: typed_object_node.dfy ===
/**
 * Typed views over JSON objects. A view owns no fields of its own: it forwards
 * to a backing object node, which it may share with other views, so a change
 * made through one view is seen through every view over the same node.
 */
module TypedNodes {
  import opened Wrappers
  import opened Nodes

  /** What an object node holds under a field name. */
  datatype Slot =
    | NullSlot                                 // the NullNode instance
    | MissingSlot                              // the MissingNode instance
    | ObjectSlot(obj: ObjectNode)              // a plain object node
    | ViewSlot(view: TypedObjectNode)          // a typed view, itself an object node to its readers
    | Leaf(kind: Kind, node: JsonNode)         // any other node, with its kind

  /** The class a caller asks `get(field, class)` for. */
  datatype NodeClass =
    | AnyNode                                  // the node interface every node implements
    | ObjectNodeClass                          // the plain object node class
    | LeafClass(kind: Kind)                    // a class of nodes of one kind
    | TypedInterface(name: string)             // a typed interface, implemented by generated views
    | OtherClass(name: string)                 // a class no stored node belongs to

  /** `Class.isInstance`: whether a stored node belongs to the class. */
  predicate IsInstance(s: Slot, c: NodeClass)
  {
    match c
    case AnyNode => true
    case ObjectNodeClass => s.ObjectSlot?
    case LeafClass(k) => s.Leaf? && s.kind == k
    case TypedInterface(name) => s.ViewSlot? && s.view.iface == name
    case OtherClass(_) => false
  }

  /** What `put` stores for a value that may be the null reference. */
  function Stored(value: Option<Slot>): (s: Slot)
    ensures value.None? ==> s == NullSlot
    ensures value.Some? ==> s == value.value
  {
    if value.None? then NullSlot else value.value
  }

  /** What `get` hands out for a stored node: the null reference for the Null and Missing instances. */
  function Exposed(s: Slot): (r: Option<Slot>)
    ensures r.None? <==> s == NullSlot || s == MissingSlot
    ensures r.Some? ==> r.value == s
  {
    if s == NullSlot || s == MissingSlot then None else Some(s)
  }

  /** An object node's lookup: the Missing instance for an absent field. */
  function Lookup(fields: map<string, Slot>, f: string): (s: Slot)
    ensures f !in fields ==> s == MissingSlot
    ensures f in fields ==> s == fields[f]
  {
    if f in fields then fields[f] else MissingSlot
  }

  /** Storing a null reference under a field reads back as absent; any other value as itself, unless it is a singleton. */
  lemma GetAfterPut(fields: map<string, Slot>, f: string, value: Option<Slot>, g: string)
    ensures Exposed(Lookup(fields[f := Stored(value)], g)) ==
      if g == f then (if value.None? then None else Exposed(value.value)) else Exposed(Lookup(fields, g))
  {
  }

  /** A null value and an absent field are told apart by nobody who reads through a view. */
  lemma NullAndAbsentLookAlike(fields: map<string, Slot>, f: string)
    requires f !in fields
    ensures Exposed(Lookup(fields[f := Stored(None)], f)) == Exposed(Lookup(fields, f)) == None
  {
  }

  /** The plain JSON object node that backs views: a map from field names to nodes. */
  class ObjectNode {
    var fields: map<string, Slot>

    constructor ()
      ensures fields == map[]
    {
      fields := map[];
    }

    /** `get`: the stored node, or the Missing instance. */
    function Get(f: string): (s: Slot)
      reads this
      ensures s == Lookup(fields, f)
    {
      Lookup(fields, f)
    }

    method Put(f: string, s: Slot)
      modifies this
      ensures fields == old(fields)[f := s]
    {
      fields := fields[f := s];
    }

    method Remove(f: string)
      modifies this
      ensures fields == old(fields) - {f}
    {
      fields := fields - {f};
    }

    method Clear()
      modifies this
      ensures fields == map[]
    {
      fields := map[];
    }

    /** `putAll`: every field of the other object is put here, its node replacing one stored under the same name. */
    method PutAll(other: ObjectNode) returns (r: ObjectNode)
      modifies this
      ensures r == this
      ensures fields == old(fields) + old(other.fields)
    {
      fields := fields + other.fields;
      r := this;
    }

    /** `size`: the number of fields. */
    function Size(): (n: nat)
      reads this
      ensures n == |fields.Keys|
    {
      |fields|
    }

    /** `clone`: a new node with the same fields; the child nodes are shared, not cloned. */
    method Clone() returns (c: ObjectNode)
      ensures fresh(c) && c.fields == fields
    {
      c := new ObjectNode();
      c.fields := fields;
    }

    /** `readResolve`: the fields are replaced by those read from the stream. */
    method ReadResolve(decoded: map<string, Slot>)
      modifies this
      ensures fields == decoded
    {
      fields := decoded;
    }

    /**
     * `copyValueFrom`: after the type check, the fields of the other object, read
     * through a view if need be. The field map is taken over, so both objects then
     * hold the same child nodes.
     */
    method CopyValueFrom(other: Option<Slot>) returns (err: Option<Error>)
      modifies this
      ensures err.None? <==> other.Some? && (other.value.ObjectSlot? || other.value.ViewSlot?)
      ensures other.None? ==> err == Some(NullDereference)
      ensures other.Some? && !other.value.ObjectSlot? && !other.value.ViewSlot? ==> err == Some(TypeMismatch)
      ensures err.Some? ==> fields == old(fields)
      ensures err.None? && other.value.ObjectSlot? ==> fields == old(other.value.obj.fields)
      ensures err.None? && other.value.ViewSlot? ==> fields == old(other.value.view.backing.fields)
    {
      if other.None? {
        return Some(NullDereference);
      }
      match other.value
      case ObjectSlot(o) =>
        fields := o.fields;
        err := None;
      case ViewSlot(v) =>
        fields := v.backing.fields;
        err := None;
      case _ =>
        err := Some(TypeMismatch);
    }
  }

  /** A typed view over an object node; `iface` is the typed interface its generated class implements. */
  class TypedObjectNode {
    const iface: string
    var backing: ObjectNode

    /** A new view is bound to a fresh, empty object node. */
    constructor (iface: string)
      ensures this.iface == iface
      ensures fresh(backing) && backing.fields == map[]
    {
      this.iface := iface;
      backing := new ObjectNode();
    }

    /**
     * `clone`: a new view of the same interface over a clone of the backing node,
     * never the node itself. The clone of the backing node is one level deep.
     */
    method Clone() returns (c: TypedObjectNode)
      ensures fresh(c) && fresh(c.backing)
      ensures c.iface == iface && c.backing != backing
      ensures c.backing.fields == backing.fields
    {
      c := new TypedObjectNode(iface);
      var b := backing.Clone();
      c.SetBackingNode(b);
    }

    /** `clear`: forwarded to the backing node. */
    method Clear()
      modifies backing
      ensures backing.fields == map[]
    {
      backing.Clear();
    }

    /** `copyValueFrom`: forwarded to the backing node. */
    method CopyValueFrom(other: Option<Slot>) returns (err: Option<Error>)
      modifies backing
      ensures err.None? <==> other.Some? && (other.value.ObjectSlot? || other.value.ViewSlot?)
      ensures other.None? ==> err == Some(NullDereference)
      ensures other.Some? && !other.value.ObjectSlot? && !other.value.ViewSlot? ==> err == Some(TypeMismatch)
      ensures err.Some? ==> backing.fields == old(backing.fields)
      ensures err.None? && other.value.ObjectSlot? ==> backing.fields == old(other.value.obj.fields)
      ensures err.None? && other.value.ViewSlot? ==> backing.fields == old(other.value.view.backing.fields)
    {
      err := backing.CopyValueFrom(other);
    }

    /** `readResolve`: the backing node reads the fields, and the view itself is the result. */
    method ReadResolve(decoded: map<string, Slot>) returns (r: TypedObjectNode)
      modifies backing
      ensures r == this && backing == old(backing)
      ensures backing.fields == decoded
    {
      backing.ReadResolve(decoded);
      r := this;
    }

    /** `write`: what is written is the backing node's content. */
    function Write(): (r: map<string, Slot>)
      reads this, backing
      ensures r == GetBackingNode().fields
    {
      backing.fields
    }

    /** `put`: a null value is stored as the NullNode instance; the backing node is returned. */
    method Put(f: string, value: Option<Slot>) returns (r: ObjectNode)
      modifies backing
      ensures r == backing
      ensures backing.fields == old(backing.fields)[f := Stored(value)]
      ensures Get(f) == if value.None? then None else Exposed(value.value)
    {
      var s := if value.None? then NullSlot else value.value;
      backing.Put(f, s);
      r := backing;
    }

    /** `get`: the stored node, or the null reference for the Null and Missing instances and absent fields. */
    function Get(f: string): (r: Option<Slot>)
      reads this, backing
      ensures r.None? <==> f !in backing.fields || backing.fields[f] == NullSlot || backing.fields[f] == MissingSlot
      ensures r.Some? ==> r.value == backing.fields[f]
    {
      var result := backing.Get(f);
      if result == MissingSlot || result == NullSlot then None else Some(result)
    }

    /**
     * `get(field, class)`: the null reference for an absent field; the node itself
     * when it belongs to the class; for a typed interface, a new view sharing the
     * stored object node; otherwise an error.
     */
    method GetAs(f: string, desired: NodeClass) returns (r: Result<Option<Slot>>)
      ensures Get(f).None? ==> r == Ok(None)
      ensures Get(f).Some? && IsInstance(Get(f).value, desired) ==> r == Ok(Get(f))
      ensures Get(f).Some? && !IsInstance(Get(f).value, desired) && desired.TypedInterface? ==>
        match Get(f).value
        case ObjectSlot(o) => r.Ok? && r.value.Some? && r.value.value.ViewSlot? && fresh(r.value.value.view) &&
          r.value.value.view.backing == o && r.value.value.view.iface == desired.name
        case ViewSlot(v) => r.Ok? && r.value.Some? && r.value.value.ViewSlot? && fresh(r.value.value.view) &&
          r.value.value.view.backing == v.backing && r.value.value.view.iface == desired.name
        case _ => r == Failure(ClassCast)
      ensures Get(f).Some? && !IsInstance(Get(f).value, desired) && !desired.TypedInterface? ==>
        r == Failure(IllegalArgument("The data object in the backing object was not of the desired type."))
    {
      var fromBacking := Get(f);
      if fromBacking.None? {
        return Ok(None);
      } else if IsInstance(fromBacking.value, desired) {
        return Ok(fromBacking);
      } else if desired.TypedInterface? {
        r := TryToWrap(fromBacking.value, desired.name);
      } else {
        return Failure(IllegalArgument("The data object in the backing object was not of the desired type."));
      }
    }

    /** `remove`: forwarded to the backing node. */
    method Remove(f: string)
      modifies backing
      ensures backing.fields == old(backing.fields) - {f}
      ensures Get(f).None?
    {
      backing.Remove(f);
    }

    /** `putAll`: forwarded to the backing node, which is returned. */
    method PutAll(other: ObjectNode) returns (r: ObjectNode)
      modifies backing
      ensures r == backing
      ensures backing.fields == old(backing.fields) + old(other.fields)
      ensures forall f :: f in old(other.fields) ==> backing.fields[f] == old(other.fields)[f]
    {
      r := backing.PutAll(other);
    }

    /** `size`: the backing node's size. */
    function Size(): (n: nat)
      reads this, backing
      ensures n == GetBackingNode().Size()
    {
      backing.Size()
    }

    function GetBackingNode(): (b: ObjectNode)
      reads this
      ensures b == backing
    {
      backing
    }

    /** `setBackingNode`: the view now forwards to `b`, which is not copied. */
    method SetBackingNode(b: ObjectNode)
      modifies this
      ensures GetBackingNode() == b
      ensures Size() == b.Size()
    {
      backing := b;
    }
  }

  /**
   * `tryToWrapObjectNodeIntoTypedObject`: a new view of the interface whose backing
   * node is the stored object node itself; a stored non-object fails the cast.
   */
  method TryToWrap(s: Slot, name: string) returns (r: Result<Option<Slot>>)
    ensures s.ObjectSlot? ==> (r.Ok? && r.value.Some? && r.value.value.ViewSlot? && fresh(r.value.value.view) &&
      r.value.value.view.backing == s.obj && r.value.value.view.iface == name)
    ensures s.ViewSlot? ==> (r.Ok? && r.value.Some? && r.value.value.ViewSlot? && fresh(r.value.value.view) &&
      r.value.value.view.backing == s.view.backing && r.value.value.view.iface == name)
    ensures !s.ObjectSlot? && !s.ViewSlot? ==> r == Failure(ClassCast)
  {
    match s
    case ObjectSlot(o) =>
      var view := new TypedObjectNode(name);
      view.SetBackingNode(o);
      r := Ok(Some(ViewSlot(view)));
    case ViewSlot(v) =>
      var view := new TypedObjectNode(name);
      view.SetBackingNode(v.backing);
      r := Ok(Some(ViewSlot(view)));
    case _ =>
      r := Failure(ClassCast);
  }

  /** Two views over one object node: a value put through one is read back through the other. */
  method PutThroughSharedBacking(a: TypedObjectNode, b: TypedObjectNode, f: string, value: Slot) returns (seen: Option<Slot>)
    requires a.backing == b.backing
    modifies a.backing
    ensures seen == Exposed(value)
  {
    var _ := a.Put(f, Some(value));
    seen := b.Get(f);
  }

  /** A view unwrapped from a stored object node aliases it: a put through the view changes the stored node. */
  method PutThroughWrappedView(outer: TypedObjectNode, f: string, name: string, g: string, value: Slot)
    returns (r: Result<Option<Slot>>)
    requires outer.Get(f).Some? && outer.Get(f).value.ObjectSlot?
    requires !IsInstance(outer.Get(f).value, TypedInterface(name))
    modifies outer.Get(f).value.obj
    ensures r.Ok? && r.value.Some? && r.value.value.ViewSlot?
    ensures old(outer.Get(f)).value.obj.fields == old(outer.Get(f).value.obj.fields)[g := value]
  {
    r := outer.GetAs(f, TypedInterface(name));
    var view := r.value.value.view;
    var _ := view.Put(g, Some(value));
  }
}

=== FILE: wrappers.dfy ===
/** Failure-carrying results shared by the modules of this model. */
module Wrappers {

  /** A value that may be absent: stands for a Java reference that may be null. */
  datatype Option<+T> = None | Some(value: T)

  /** The Java exceptions the modelled operations raise. */
  datatype Error =
    | IllegalArgument(message: string)
    | NullPointer(message: string)
    | NullDereference      // a null argument dereferenced by a type check, with no message of its own
    | UnsupportedOperation(detail: Option<string>)   // the exception's message, None when it has none
    | TypeMismatch
    | ClassCast
    | Truncated            // the stream ended inside a field
    | NegativeArraySize
    | UnknownHost

  /** The outcome of an operation that either returns a value or throws. */
  datatype Result<+R> = Ok(value: R) | Failure(error: Error)

  /** Java's `int`. */
  type Int32 = x: int | -0x8000_0000 <= x < 0x8000_0000

  /** Java's `int` arithmetic: the mathematical value reduced into [-2^31, 2^31). */
  function Wrap32(x: int): (r: int)
    ensures -0x8000_0000 <= r < 0x8000_0000
    ensures (r - x) % 0x1_0000_0000 == 0
    ensures -0x8000_0000 <= x < 0x8000_0000 ==> r == x
  {
    (x + 0x8000_0000) % 0x1_0000_0000 - 0x8000_0000
  }

  function Max(a: int, b: int): int { if a < b then b else a }

  function Min(a: int, b: int): int { if a < b then a else b }
}
